=== FILE: README.md ===
# CourseWizard course logic in Dafny

CourseWizard crawls a university course catalogue, loads each course into a
vector index, and serves search and timetable requests. Most of the work is
I/O: crawling, embedding, index queries and HTTP routes. Three pieces of pure
logic sit inside it, and this project models them:

- **The schedule-string codec.**
  - `gettime` (tools/insert_db.py) writes a course's schedules as the compact text `"weekday 4, 234. "`.
  - `parse_time_slots` reads that text back into slot records. Identical copies live in database/api/api.py and database/scripts/embed_upload.py.
  - `get_classroom` picks the first schedule's classroom.
- **The timetable builder** (database/api/api.py).
  - `has_time_conflict` is the pairwise slot overlap test.
  - `generate_schedule` sorts the resolved courses by credit, largest first and stable on ties, then makes one first-fit pass.
  - `recommend_courses` feeds search hits into `generate_schedule`.
- **The upload record** (database/scripts/embed_upload.py).
  - `create_embedding_text` builds the text that gets embedded.
  - `process_course` maps a raw course record to its payload.

Modules, one file each:

| file | module | what it holds |
|---|---|---|
| json.dfy | `Json` | `Option`; `Entry` for a JSON key that is missing, `null` or set; `dict.get` with a default; truthiness of strings |
| strings.dfy | `Strings` | ASCII digits, `str()` of an `int`, `"".join`, `sep.join`, Python whitespace |
| time_slots.dfy | `TimeSlots` | `parse_time_slots`, with the regular-expression search written as a scanner |
| ingest.dfy | `Ingest` | `gettime`, `get_classroom` |
| round_trip.dfy | `RoundTrip` | what `parse_time_slots` returns on text written by `gettime` |
| scheduler.dfy | `Scheduler` | `has_time_conflict`, the stable credit sort, the greedy pass as a fold, `generate_schedule`, `recommend_courses` |
| embedding.dfy | `Embedding` | `create_embedding_text`, the `process_course` payload |

How the search is modelled:

- `parse_time_slots` finds its groups with `re.findall(r'weekday (\d+), ([0-9X]+)\.?', s)`.
- `TimeSlots.MatchAt` is the match the pattern makes at the start of a text. `TimeSlots.FindAll` scans left to right and resumes after each match, as `findall` does.
- `TimeSlots.MatchAtIsLongestMatch` proves `MatchAt` is exactly the greedy regular-expression match.

How the greedy pass is modelled:

- The pass is `Scheduler.Fold` over `Scheduler.Step`.
- The fold's state, `Builder`, carries:
  - the accepted courses;
  - the running total;
  - the structured rejections, rendered to the source's strings at the end.
- Its invariant, `Consistent`, states three things:
  - the total is the sum of the accepted credits;
  - the accepted courses are pairwise conflict-free;
  - once anything is accepted, the total is within the ceiling.

Given no resolved courses, `generate_schedule` returns the message
`"No valid courses found"` with an empty schedule, 0 credits and no
conflicts (database/api/api.py:200-201). The success message is used only
when at least one code resolves.

The API queries one collection and uses its scores as returned
(database/api/api.py:127-136). It does no score fusion.

## Model

| member | source | states |
|---|---|---|
| TimeSlots.MatchAt | database/api/api.py:79-80 | A match of `weekday (\d+), ([0-9X]+)\.?` has a non-empty all-digit day group and a non-empty `[0-9X]` period group. It consumes the keyword, both groups, `", "` and at most one dot. The groups are the text they were captured from: the day group starts right after `"weekday "`, the period group right after `", "`. |
| TimeSlots.MatchAtIsLongestMatch | database/api/api.py:79-80 | `MatchAt` finds nothing iff no prefix of the text matches the pattern. Otherwise its result matches the pattern, its groups are the captured text, and it is at least as long as every other match at that position, i.e. the greedy match. |
| TimeSlots.FindAll | database/api/api.py:80 | Every group `findall` returns has a non-empty all-digit day and a non-empty `[0-9X]` period run. Each match takes at least 12 characters, so a text of length n yields at most n/12 groups. |
| TimeSlots.FindAllSkips | database/api/api.py:80 | Text without a `w` holds no match, so `findall` skips over it. |
| TimeSlots.DayLabel | database/api/api.py:84-89 | The labels of `day_map`, each one named: `'0'` is `星期日`, and `'1'` to `'6'` are `星期一` to `星期六`. Any other day string `d` gets `'星期' + d`. Every label starts with `星期`. |
| TimeSlots.DayLabelInjective | database/api/api.py:84-89 | Distinct digit strings get distinct weekday labels, so comparing labels compares days. |
| TimeSlots.DigitSlots | database/api/api.py:92-99 | One slot per digit of the period group, in order; `X` emits nothing. Each slot carries the group's weekday label, the digit's value as `period`, and `weekday + '第' + digit + '節'` as `time`. |
| TimeSlots.ParseTimeSlots | database/api/api.py:71-74 | Empty or whitespace-only input gives the empty list, never an error. |
| TimeSlots.BlankCheckAgreesWithScan | database/scripts/embed_upload.py:28-34 | The early return for blank text agrees with scanning that text: either way no slot is produced. |
| TimeSlots.ParseEmitsOneSlotPerDigit | database/api/api.py:82-99 | The slots of the groups number exactly the digits across all period groups. The k-th slot's period is the k-th digit's value, so slots follow group order, then character order within a group. |
| TimeSlots.ParseTimeSlotsCountsDigits | database/scripts/embed_upload.py:26-56 | `parse_time_slots` emits exactly one slot per digit of the matched period groups, in order, with the digit's value as period. |
| TimeSlots.GroupSlotsAppend | database/api/api.py:82-99 | The slots of two group lists in sequence are the slots of the first followed by those of the second. |
| Ingest.SchedulePiece | tools/insert_db.py:28-31 | One schedule's piece is 12 characters longer than the weekday's decimal text and the joined intervals together. |
| Ingest.SchedulePieceLayout | tools/insert_db.py:28-31 | A piece is `"weekday "`, then the weekday's decimal text and `", "`, then the intervals joined without separator, then `". "`. |
| Ingest.GetTime | tools/insert_db.py:26-32 | The text is empty iff there are no schedules. Non-empty text opens with `"weekday "` and closes with `". "`. Every schedule adds at least 13 characters. |
| Ingest.GetTimeAppend | tools/insert_db.py:26-32 | `gettime(a + b) == gettime(a) + gettime(b)`. |
| Ingest.GetTimeSnoc | tools/insert_db.py:26-32 | The loop step `time += f"weekday {weekday}, {intervals}. "`: one more schedule appends exactly its piece, with the intervals joined without separator. So the left-to-right accumulation builds `GetTime`: one piece per schedule, in input order. |
| Ingest.GetClassroom | tools/insert_db.py:56-61 | Returns `None` for no schedules. For a non-empty `classroom` object of the first schedule, returns that object's `name`, or `None` when `name` is missing or null. Returns `{}` when the first schedule has no `classroom` key or an empty one, and `None` when it is `null`. |
| Ingest.GetClassroomFirstOnly | tools/insert_db.py:57-58 | Schedules after the first never change the classroom. |
| RoundTrip.MatchPiece | tools/insert_db.py:31 | At a piece written by `gettime` with a non-negative weekday and non-empty `[0-9X]` intervals, the pattern matches the whole piece up to and including its dot. The groups are the weekday digits and the joined intervals. |
| RoundTrip.FindAllOfGetTime | tools/insert_db.py:26-32 | On `gettime`'s text, `findall` yields one group per schedule that has a non-negative weekday and a non-empty interval text, in schedule order. Other schedules yield nothing. |
| RoundTrip.RoundTrip | tools/insert_db.py:26-32 | `parse_time_slots(gettime(ss))` is the concatenation, schedule by schedule, of one slot per digit of the joined intervals, labelled with that weekday's label. This holds for schedules whose intervals hold only `[0-9X]` characters. Negative weekdays contribute nothing. |
| RoundTrip.RoundTripSingleCharIntervals | database/api/api.py:79-99 | For non-negative weekdays and single-character `[0-9X]` intervals, the parse yields exactly one slot per digit interval, in order. Each slot carries that schedule's weekday label, the digit's value and the matching `time` text. |
| RoundTrip.EmptyIntervalsGiveNoSlots | tools/insert_db.py:29-31 | A schedule with no intervals writes a piece the parser ignores. |
| RoundTrip.NegativeWeekdayGivesNoSlots | database/api/api.py:79-80 | A negative weekday is written with a minus sign, which `\d+` does not accept, so the schedule yields no slots. |
| RoundTrip.MultiCharIntervalIsSplit | database/api/api.py:92-93 | A multi-character interval such as `"10"` comes back as two periods, 1 and 0, not as period 10. |
| Scheduler.ClashesWithAny | database/api/api.py:105-108 | The inner loop finds a clash iff some slot of the other list has the same weekday and period. |
| Scheduler.HasTimeConflict | database/api/api.py:103-110 | True iff some slot of `a` and some slot of `b` have equal weekday and equal period. |
| Scheduler.ConflictSymmetric | database/api/api.py:103-110 | The conflict test is symmetric and is false whenever either list is empty. |
| Scheduler.InsertByCredit | database/api/api.py:209 | Inserting into a credit-descending list keeps it credit-descending and adds exactly the inserted course. |
| Scheduler.InsertKeepsOrder | database/api/api.py:209 | Insertion puts the new course ahead of the equal-credit courses already in the list. |
| Scheduler.SortByCreditDesc | database/api/api.py:209 | The sorted list is credit-descending and a permutation of the input. For every credit value, the courses with that credit keep their input order (stability). |
| Scheduler.StableSortUnique | database/api/api.py:209 | Two credit-descending lists with the same courses per credit value, in the same order, are equal. So any stable descending sort of the courses, Python's included, gives `SortByCreditDesc`. |
| Scheduler.FirstConflict | database/api/api.py:220-227 | Names the earliest accepted course that conflicts with the candidate, or nothing iff none conflicts. |
| Scheduler.AcceptKeepsConsistent | database/api/api.py:229-231 | Accepting a course that fits the ceiling and conflicts with no accepted course keeps the total equal to the credit sum and the selection conflict-free. |
| Scheduler.Step | database/api/api.py:211-231 | One iteration keeps `Consistent` and records exactly one outcome for the course. Over the ceiling gives a credit rejection, checked first. Otherwise the first conflicting accepted course gives a conflict rejection naming it. Otherwise the course is accepted. Acceptance holds iff the course fits and conflicts with nothing. |
| Scheduler.InterleavingAccounts | database/api/api.py:211-231 | When the accepted and rejected courses interleave the input, together they are exactly the input. Both sides keep the input's order. |
| Scheduler.Fold | database/api/api.py:211-231 | The whole pass keeps `Consistent`, only appends to the state, and sends each input course to exactly one of accepted or rejected, in input order. |
| Scheduler.StepKeepsBlocked | database/api/api.py:215-231 | With a non-negative credit, one iteration never lifts an earlier rejection. The total does not fall, and accepted courses stay accepted. |
| Scheduler.NewRejectionBlocked | database/api/api.py:215-227 | The rejection an iteration adds holds right after it. A credit rejection is over the ceiling at the unchanged total. A conflict rejection names a course that is in the schedule and clashes. |
| Scheduler.GreedyIsMaximal | database/api/api.py:215-231 | For non-negative credits and any ceiling, every rejection still holds at the end. A credit-rejected course would overflow the final total. A conflict-rejected course clashes with a course that stayed in the schedule. |
| Scheduler.RejectionText | database/api/api.py:215-225 | A credit rejection reads `"Credit limit exceeded: "`, the course name, then `" ("`, the credits and `" credits)"`. A conflict rejection reads `"Time conflict: "`, the course name, then `" conflicts with "` and the accepted course's name. |
| Scheduler.RejectionKindIsVisible | database/api/api.py:215-225 | Equal reason texts come from the same kind of rejection. |
| Scheduler.SuccessMessage | database/api/api.py:237 | The message is `"Successfully scheduled "`, the count in decimal, then `" courses"`. |
| Scheduler.SuccessMessageInjective | database/api/api.py:200-237 | Two success messages are equal iff their counts are, and no success message equals `"No valid courses found"`. |
| Scheduler.GenerateSchedule | database/api/api.py:200-238 | No courses gives an empty schedule, 0 credits, no conflicts and "No valid courses found". Otherwise the message is "Successfully scheduled N courses" with N the schedule's length. In both cases:<br>- the total is the schedule's credit sum;<br>- the total is within the ceiling whenever the ceiling is non-negative or something was scheduled;<br>- no two scheduled courses conflict;<br>- schedule plus conflicts count the input;<br>- the schedule is a sub-multiset of the input and a subsequence of its stable credit-descending order.<br>For a non-empty input the schedule and total are those of the pass, and `conflicts[i]` is the reason text of the pass's i-th rejection. |
| Scheduler.BuildAccountsForEveryCourse | database/api/api.py:211-231 | The accepted courses and the subjects of the rejections are exactly the resolved courses. The rejections follow the credit-sorted order. |
| Scheduler.Resolve | database/api/api.py:194-198 | The lookup loop keeps only courses found under one of the codes. It is empty iff no code resolves. |
| Scheduler.ResolveSingle | database/api/api.py:195-198 | One code contributes its course when the lookup finds it, and nothing otherwise. |
| Scheduler.ResolveAppend | database/api/api.py:194-198 | Resolving concatenated code lists concatenates the results. With `ResolveSingle` this fixes the result: every resolving code contributes its course, in code order, once per occurrence. |
| Scheduler.GenerateScheduleForCodes | database/api/api.py:192-238 | When no code resolves, the message is "No valid courses found". When some code resolves, it is "Successfully scheduled N courses" with N the schedule's length. The total is the schedule's credit sum. The total is within the ceiling when the ceiling is non-negative or something was scheduled. The schedule is conflict-free. Every scheduled course was found under one of the codes. Schedule plus conflicts number exactly the resolved courses, and so at most the codes. |
| Scheduler.RecommendCourses | database/api/api.py:240-261 | The recommendation echoes the query, counts the candidates, and copies schedule, total, conflicts and message from `generate_schedule` on the candidates' codes. |
| Scheduler.RecommendSchedulesCandidates | database/api/api.py:250-261 | When each candidate's code looks the candidate up, the recommendation reports one outcome per candidate. It schedules only candidates, conflict-free, with the total equal to their credit sum and within a non-negative ceiling. |
| Embedding.Piece | database/scripts/embed_upload.py:63-87 | A field contributes a piece iff it is truthy. The piece is the prefix followed by the value, and is never empty. |
| Embedding.EmbeddingText | database/scripts/embed_upload.py:58-89 | The text is empty iff none of name, overview, objective, teacher (`teacger`), department, course number and comment is truthy. A truthy name opens the text and a truthy comment closes it. |
| Embedding.PiecesAreNonEmpty | database/scripts/embed_upload.py:60-89 | No joined piece is empty. There are no pieces exactly when no field is truthy. |
| Embedding.EmbeddingTextOfSources | database/scripts/embed_upload.py:58-89 | The text is the pieces of the fields listed in the order name, `course_overview`, `course_objective`, `teacger` behind `授課教師: `, `department` behind `開課單位: `, `course_number` behind `課號: `, and `comment`, joined by single spaces. |
| Embedding.PiecesOfAt | database/scripts/embed_upload.py:60-87 | Over any field list, a truthy field with `k` truthy fields before it is piece number `k`, and that piece is its prefix followed by its value. So the pieces keep the list order. |
| Embedding.PiecesOfCount | database/scripts/embed_upload.py:60-87 | Over the fields in text order, one piece per truthy field. The pieces' total length is the sum of each truthy field's prefix and value lengths. |
| Embedding.EmbeddingTextLength | database/scripts/embed_upload.py:74-89 | The text's length is the prefixed lengths of the truthy fields plus one space between neighbouring pieces. The prefixes are `授課教師: `, `開課單位: ` and `課號: `. |
| Embedding.TextDependsOnlyOnTruthyFields | database/scripts/embed_upload.py:63-87 | The text depends only on which of the seven fields are truthy and on their values. A missing key, `null` and `""` are alike. |
| Embedding.TeacherKeyIgnored | database/scripts/embed_upload.py:74-75 | The teacher is read from `teacger` only. Changing the `teacher` key, code, semester, credit, time, classroom or targets never changes the text. |
| Embedding.OnlyTeacher | database/scripts/embed_upload.py:74-75 | A record whose only truthy field is `teacger` gets exactly `"授課教師: " + teacger`. |
| Embedding.TimeSlotsOf | database/scripts/embed_upload.py:101 | A missing or null `time` yields no slots. A string yields `parse_time_slots` of it. |
| Embedding.ProcessCourse | database/scripts/embed_upload.py:91-138 | The payload's `full_text` and `embedding_text` are both the embedding text, and the vector is the encoder applied to it. `time_slots` is the parse of `time`. `teacher` comes from `teacger`. The point id is the index. Every other payload key copies its course key. A `null` value gives None. A missing key gives the source's default:<br>- `""` for `name`, `course_number`, `code`, `semester`, `department`, `teacher` and `time_raw`;<br>- 0 for `credit`;<br>- `[]` for `targets`;<br>- None for `classroom`, `course_overview`, `course_objective` and `comment`. |
| Embedding.UploadedSlotsMatchSchedules | database/scripts/embed_upload.py:101-116 | A record whose `time` was written by `gettime` from well-formed schedules uploads with exactly those schedules' expected slots. Its raw time text is kept. |

## Left out

- Qdrant and SentenceTransformer are left out: `_lazy_init`, `search_courses`, `get_course_by_code`, collection management, batching and file loading. These are external services.
  - The course lookup is the parameter `lookup: string -> Option<Course>`. It returns `None` both for a missing code and for an empty payload, which `if course:` also drops.
  - The search in `recommend_courses` is the parameter `candidates`: the hits of its `top_k=20` query.
  - The encoder is the parameter `encode`.
- Similarity scores are floats produced by the vector index.
- The `time_slots` re-fill that `search_courses` and `get_course_by_code` perform on a payload with empty slots is part of the lookup, not of the model.
- FastAPI routes and HTTP error mapping are transport plumbing.
- The crawler, the `__main__` blocks, and the scripts under database/test and database/scripts/reset_db.py do network or file I/O only.
- Scheduler.Course: a resolved course is taken with its `code`, printed `name`, integer `credit` and parsed `time_slots`. A missing `credit` is credit 0, because `generate_schedule` reads it with `.get("credit", 0)` (database/api/api.py:209, 212). Two other kinds of credit are left out:
  - a float or boolean credit, which Python sorts, adds and prints without error;
  - a `null` or string credit, on which the sort (database/api/api.py:209) or the addition (database/api/api.py:216) raises `TypeError`. The sort's key comparison raises first when another course has an integer credit.
- Ingest.Schedule: `weekday` is an integer and `intervals` a list of strings. The source's other cases are left out:
  - a missing `weekday` or `intervals` key, on which `gettime` raises `KeyError` (tools/insert_db.py:28-29);
  - a non-string interval, on which `''.join` raises `TypeError` (tools/insert_db.py:30);
  - a `null` weekday, which `gettime` writes as `weekday None, …` and which `parse_time_slots` then skips;
  - a truthy `classroom` that is not an object, on which `get_classroom` raises `AttributeError` (tools/insert_db.py:60).
  - a present but falsy `classroom` that is not an object (`""`, `0`, `[]`, `false`), which `get_classroom` returns unchanged (tools/insert_db.py:58-61) and which `Classroom` cannot represent;
  - a float weekday, which `gettime` writes as `weekday 5.0, …` and which `parse_time_slots` then skips.
- Embedding.RawCourse: the text fields hold strings. Two other cases are left out:
  - a truthy non-string `name`, `course_overview`, `course_objective` or `comment` is appended as is, and `" ".join` then raises `TypeError` (database/scripts/embed_upload.py:63-71, 86-89);
  - a non-string `teacger`, `department` or `course_number` is rendered by its f-string and accepted; that rendering is not modelled.
- TimeSlots.MatchAt: only ASCII `0`-`9` count as `\d` and as `isdigit()`. Python also accepts other Unicode decimal digits, which this model treats as non-digits.
- Scheduler.GreedyIsMaximal: stated for non-negative credits. With negative credits a later acceptance can lower the total, so an earlier credit rejection need not still hold.
- Scheduler.GenerateSchedule: the ceiling bound is stated when the ceiling is non-negative or something was scheduled. With a negative ceiling and nothing accepted, the total is 0 and above the ceiling, exactly as in the source.

=== FILE: embedding.dfy ===
/** The upload script's per-course logic: `create_embedding_text`, which
    builds the text that is embedded, and the payload mapping of
    `process_course`. The sentence encoder is a parameter; the vector it
    returns is opaque here. */
module Embedding {
  import opened Json
  import opened Strings
  import opened TimeSlots
  import opened Ingest
  import opened RoundTrip

  /** One course record of the crawled course list, key by key. `teacger` is
      the key the ingest tool writes the teacher's name under; a `teacher`
      key may also be present and is read by nothing. `classroom` is `None`
      when the key is missing, otherwise the value `get_classroom` stored. */
  datatype RawCourse = RawCourse(
    name: Field, courseNumber: Field, code: Field, semester: Field,
    department: Field, teacger: Field, teacher: Field, credit: Entry<int>,
    time: Field, classroom: Option<Classroom>, targets: Entry<seq<string>>,
    comment: Field, courseOverview: Field, courseObjective: Field)

  const TeacherPrefix: string := "授課教師: "
  const DepartmentPrefix: string := "開課單位: "
  const NumberPrefix: string := "課號: "

  /** The text a field contributes: nothing unless it is truthy, then the
      prefix followed by the value. */
  function Piece(f: Field, prefix: string): (r: seq<string>)
    ensures |r| <= 1
    ensures r != [] <==> Truthy(f)
    ensures r != [] ==> r[0] == prefix + f.value && r[0] != ""
  {
    if Truthy(f) then [prefix + f.value] else []
  }

  /** The pieces in their fixed order: name, overview, objective, teacher,
      department, course number, comment. */
  function Pieces(c: RawCourse): (r: seq<string>) {
    Piece(c.name, "") + (Piece(c.courseOverview, "") + (Piece(c.courseObjective, "")
    + (Piece(c.teacger, TeacherPrefix) + (Piece(c.department, DepartmentPrefix)
    + (Piece(c.courseNumber, NumberPrefix) + Piece(c.comment, ""))))))
  }

  /** Whether any of the seven fields the text is built from is truthy. */
  predicate HasText(c: RawCourse) {
    || Truthy(c.name) || Truthy(c.courseOverview) || Truthy(c.courseObjective)
    || Truthy(c.teacger) || Truthy(c.department) || Truthy(c.courseNumber)
    || Truthy(c.comment)
  }

  /** `create_embedding_text`: the pieces joined by single spaces. The text is
      empty exactly when no field is truthy; a truthy name opens it and a
      truthy comment closes it. */
  function EmbeddingText(c: RawCourse): (r: string)
    ensures r == "" <==> !HasText(c)
    ensures Truthy(c.name) ==> |c.name.value| <= |r| && r[..|c.name.value|] == c.name.value
    ensures Truthy(c.comment) ==> |c.comment.value| <= |r| && r[|r| - |c.comment.value|..] == c.comment.value
  {
    JoinedPiecesEnds(c);
    JoinWith(" ", Pieces(c))
  }

  lemma JoinedPiecesEnds(c: RawCourse)
    ensures var r := JoinWith(" ", Pieces(c));
      && (r == "" <==> !HasText(c))
      && (Truthy(c.name) ==> |c.name.value| <= |r| && r[..|c.name.value|] == c.name.value)
      && (Truthy(c.comment) ==> |c.comment.value| <= |r| && r[|r| - |c.comment.value|..] == c.comment.value)
  {
    var ps := Pieces(c);
    PiecesAreNonEmpty(c);
    if ps != [] {
      JoinWithEnds(" ", ps);
      assert ps[0] != "";
      if Truthy(c.comment) {
        assert ps[|ps| - 1] == c.comment.value;
      }
    }
  }

  /** No piece is empty, and there are no pieces exactly when no field is truthy. */
  lemma PiecesAreNonEmpty(c: RawCourse)
    ensures forall k :: 0 <= k < |Pieces(c)| ==> Pieces(c)[k] != ""
    ensures Pieces(c) == [] <==> !HasText(c)
  {
    var ps := Pieces(c);
    var a, b, d, e, f, g, h :=
      Piece(c.name, ""), Piece(c.courseOverview, ""), Piece(c.courseObjective, ""),
      Piece(c.teacger, TeacherPrefix), Piece(c.department, DepartmentPrefix),
      Piece(c.courseNumber, NumberPrefix), Piece(c.comment, "");
    assert ps == a + (b + (d + (e + (f + (g + h)))));
    forall k | 0 <= k < |ps| ensures ps[k] != "" {
      var x := ps[k];
      assert x in a || x in b || x in d || x in e || x in f || x in g || x in h;
    }
  }

  /** The seven fields with their prefixes, in text order. */
  function Sources(c: RawCourse): (r: seq<(Field, string)>) {
    [(c.name, ""), (c.courseOverview, ""), (c.courseObjective, ""),
     (c.teacger, TeacherPrefix), (c.department, DepartmentPrefix),
     (c.courseNumber, NumberPrefix), (c.comment, "")]
  }

  /** The pieces of a list of fields, in list order. */
  function PiecesOf(fs: seq<(Field, string)>): (r: seq<string>)
    decreases |fs|
  {
    if fs == [] then [] else Piece(fs[0].0, fs[0].1) + PiecesOf(fs[1..])
  }

  /** How many of the fields are truthy. */
  function TruthyCount(fs: seq<(Field, string)>): (n: nat)
    decreases |fs|
  {
    if fs == [] then 0 else (if Truthy(fs[0].0) then 1 else 0) + TruthyCount(fs[1..])
  }

  /** Prefixed length of a field's contribution, zero when it is not truthy. */
  function PieceLength(f: Field, prefix: string): (r: nat) {
    if Truthy(f) then |prefix| + |f.value| else 0
  }

  /** The characters the truthy fields contribute, prefixes included. */
  function PiecesLength(fs: seq<(Field, string)>): (n: nat)
    decreases |fs|
  {
    if fs == [] then 0 else PieceLength(fs[0].0, fs[0].1) + PiecesLength(fs[1..])
  }

  lemma PiecesFromSources(c: RawCourse)
    ensures Pieces(c) == PiecesOf(Sources(c))
  {
    var fs := Sources(c);
    var ps := seq(7, k requires 0 <= k < 7 => Piece(fs[k].0, fs[k].1));
    assert PiecesOf(fs[7..]) == [];
    assert PiecesOf(fs[6..]) == ps[6] + PiecesOf(fs[7..]);
    assert PiecesOf(fs[5..]) == ps[5] + PiecesOf(fs[6..]);
    assert PiecesOf(fs[4..]) == ps[4] + PiecesOf(fs[5..]);
    assert PiecesOf(fs[3..]) == ps[3] + PiecesOf(fs[4..]);
    assert PiecesOf(fs[2..]) == ps[2] + PiecesOf(fs[3..]);
    assert PiecesOf(fs[1..]) == ps[1] + PiecesOf(fs[2..]);
    assert PiecesOf(fs) == ps[0] + PiecesOf(fs[1..]);
    assert ps[6] + [] == ps[6];
  }

  /** The text is the pieces of the seven sources, in the order `Sources`
      lists them, joined by single spaces. */
  lemma EmbeddingTextOfSources(c: RawCourse)
    ensures EmbeddingText(c) == JoinWith(" ", PiecesOf(Sources(c)))
  {
    PiecesFromSources(c);
  }

  /** A truthy field with `k` truthy fields before it in the list is piece
      number `k`: its prefix followed by its value. Together with
      `PiecesOfCount`, untruthy fields contribute nothing and the order of
      the pieces is the order of the list. */
  lemma {:induction false} PiecesOfAt(fs: seq<(Field, string)>, i: nat)
    requires i < |fs| && Truthy(fs[i].0)
    ensures TruthyCount(fs[..i]) < |PiecesOf(fs)|
    ensures PiecesOf(fs)[TruthyCount(fs[..i])] == fs[i].1 + fs[i].0.value
    decreases i
  {
    var head := Piece(fs[0].0, fs[0].1);
    assert PiecesOf(fs) == head + PiecesOf(fs[1..]);
    if i == 0 {
      assert fs[..0] == [];
    } else {
      PiecesOfAt(fs[1..], i - 1);
      assert fs[..i][1..] == fs[1..][..i - 1];
      assert TruthyCount(fs[..i]) == |head| + TruthyCount(fs[1..][..i - 1]);
    }
  }

  lemma {:induction false} PiecesOfCount(fs: seq<(Field, string)>)
    ensures |PiecesOf(fs)| == TruthyCount(fs)
    ensures TotalLength(PiecesOf(fs)) == PiecesLength(fs)
    decreases |fs|
  {
    if fs != [] {
      PiecesOfCount(fs[1..]);
      PieceTotalLength(fs[0].0, fs[0].1);
      TotalLengthAppend(Piece(fs[0].0, fs[0].1), PiecesOf(fs[1..]));
    }
  }

  /** The text holds each truthy field's prefix and value, plus one space
      between neighbouring pieces. */
  lemma EmbeddingTextLength(c: RawCourse)
    requires HasText(c)
    ensures |EmbeddingText(c)| == PiecesLength(Sources(c)) + (TruthyCount(Sources(c)) - 1)
  {
    PiecesAreNonEmpty(c);
    PiecesFromSources(c);
    PiecesOfCount(Sources(c));
    JoinWithLength(" ", Pieces(c));
    assert |JoinWith(" ", Pieces(c))| == TotalLength(Pieces(c)) + (|Pieces(c)| - 1) * 1;
  }

  lemma PieceTotalLength(f: Field, prefix: string)
    ensures TotalLength(Piece(f, prefix)) == PieceLength(f, prefix)
  {
    if Truthy(f) {
      assert Piece(f, prefix)[1..] == [];
    }
  }

  lemma {:induction false} TotalLengthAppend(xs: seq<string>, ys: seq<string>)
    ensures TotalLength(xs + ys) == TotalLength(xs) + TotalLength(ys)
    decreases |xs|
  {
    if xs == [] {
      assert xs + ys == ys;
    } else {
      assert (xs + ys)[1..] == xs[1..] + ys;
      TotalLengthAppend(xs[1..], ys);
    }
  }

  /** Only the truthy values matter: two records that agree on which of the
      seven fields are truthy, and on those fields' values, get the same text.
      In particular a missing key, a `null` and an empty string are alike. */
  lemma TextDependsOnlyOnTruthyFields(c: RawCourse, d: RawCourse)
    requires Truthy(c.name) == Truthy(d.name) && (Truthy(c.name) ==> c.name == d.name)
    requires Truthy(c.courseOverview) == Truthy(d.courseOverview) && (Truthy(c.courseOverview) ==> c.courseOverview == d.courseOverview)
    requires Truthy(c.courseObjective) == Truthy(d.courseObjective) && (Truthy(c.courseObjective) ==> c.courseObjective == d.courseObjective)
    requires Truthy(c.teacger) == Truthy(d.teacger) && (Truthy(c.teacger) ==> c.teacger == d.teacger)
    requires Truthy(c.department) == Truthy(d.department) && (Truthy(c.department) ==> c.department == d.department)
    requires Truthy(c.courseNumber) == Truthy(d.courseNumber) && (Truthy(c.courseNumber) ==> c.courseNumber == d.courseNumber)
    requires Truthy(c.comment) == Truthy(d.comment) && (Truthy(c.comment) ==> c.comment == d.comment)
    ensures EmbeddingText(c) == EmbeddingText(d)
  {
    assert Pieces(c) == Pieces(d);
  }

  /** The teacher is read from `teacger` alone: the `teacher` key, the code,
      semester, credit, time, classroom and targets never reach the text. */
  lemma TeacherKeyIgnored(c: RawCourse, teacher: Field, code: Field, semester: Field, credit: Entry<int>, time: Field,
                           classroom: Option<Classroom>, targets: Entry<seq<string>>)
    ensures var c2 := c.(teacher := teacher, code := code, semester := semester, credit := credit, time := time,
                         classroom := classroom, targets := targets);
      EmbeddingText(c2) == EmbeddingText(c)
  {
    TextDependsOnlyOnTruthyFields(c.(teacher := teacher, code := code, semester := semester, credit := credit, time := time,
                                     classroom := classroom, targets := targets), c);
  }

  /** A record whose only truthy field is the teacher gets exactly the
      prefixed teacher name. */
  lemma OnlyTeacher(c: RawCourse)
    requires Truthy(c.teacger)
    requires !Truthy(c.name) && !Truthy(c.courseOverview) && !Truthy(c.courseObjective)
    requires !Truthy(c.department) && !Truthy(c.courseNumber) && !Truthy(c.comment)
    ensures EmbeddingText(c) == TeacherPrefix + c.teacger.value
  {
    assert Pieces(c) == [TeacherPrefix + c.teacger.value];
  }

  /** The upload record. Keys read with `dict.get(key)` or
      `dict.get(key, default)` hold `None` for a stored `null`. */
  datatype Payload = Payload(
    name: Option<string>, courseNumber: Option<string>, code: Option<string>,
    semester: Option<string>, department: Option<string>, teacher: Option<string>,
    credit: Option<int>, timeRaw: Option<string>, timeSlots: seq<Slot>,
    classroom: Classroom, targets: Option<seq<string>>,
    courseOverview: Option<string>, courseObjective: Option<string>, comment: Option<string>,
    embeddingText: string, fullText: string)

  /** One point of the vector collection: its id, vector and payload. */
  datatype Point<V> = Point(id: int, vector: V, payload: Payload)

  /** `parse_time_slots(course.get('time', ''))`: a missing key parses as the
      empty text and a `null` falls into the early return for falsy input. */
  function TimeSlotsOf(time: Field): (r: seq<Slot>)
    ensures !time.Present? ==> r == []
    ensures time.Present? ==> r == ParseTimeSlots(time.value)
  {
    match time
    case Present(s) => ParseTimeSlots(s)
    case _ => []
  }

  /** `process_course` with the sentence encoder as the parameter `encode`. */
  function ProcessCourse<V>(c: RawCourse, index: int, encode: string -> V): (p: Point<V>)
    ensures p.id == index
    ensures p.payload.embeddingText == EmbeddingText(c) && p.payload.fullText == p.payload.embeddingText
    ensures p.vector == encode(p.payload.embeddingText)
    ensures p.payload.name == GetOr(c.name, Some(""))
    ensures p.payload.courseNumber == GetOr(c.courseNumber, Some(""))
    ensures p.payload.code == GetOr(c.code, Some(""))
    ensures p.payload.semester == GetOr(c.semester, Some(""))
    ensures p.payload.department == GetOr(c.department, Some(""))
    ensures p.payload.teacher == GetOr(c.teacger, Some(""))
    ensures p.payload.credit == GetOr(c.credit, Some(0))
    ensures p.payload.timeRaw == GetOr(c.time, Some(""))
    ensures p.payload.timeSlots == TimeSlotsOf(c.time)
    ensures c.classroom.Some? ==> p.payload.classroom == c.classroom.value
    ensures p.payload.targets == GetOr(c.targets, Some([]))
    ensures p.payload.courseOverview == GetOr(c.courseOverview, None)
    ensures p.payload.courseObjective == GetOr(c.courseObjective, None)
    ensures p.payload.comment == GetOr(c.comment, None)
    ensures c.time.Absent? ==> p.payload.timeRaw == Some("") && p.payload.timeSlots == []
    ensures c.credit.Absent? ==> p.payload.credit == Some(0)
    ensures c.classroom.None? ==> p.payload.classroom == NoClassroom
    ensures c.targets.Absent? ==> p.payload.targets == Some([])
  {
    var text := EmbeddingText(c);
    var payload := Payload(
      GetOr(c.name, Some("")), GetOr(c.courseNumber, Some("")), GetOr(c.code, Some("")),
      GetOr(c.semester, Some("")), GetOr(c.department, Some("")), GetOr(c.teacger, Some("")),
      GetOr(c.credit, Some(0)), GetOr(c.time, Some("")), TimeSlotsOf(c.time),
      (if c.classroom.Some? then c.classroom.value else NoClassroom),
      GetOr(c.targets, Some([])),
      GetOr(c.courseOverview, None), GetOr(c.courseObjective, None), GetOr(c.comment, None),
      text, text);
    Point(index, encode(text), payload)
  }

  /** A record whose `time` the ingest tool wrote from well-formed schedules
      uploads with exactly the slots of those schedules: one per period
      digit, in schedule order, each under its schedule's weekday label. */
  lemma UploadedSlotsMatchSchedules<V>(c: RawCourse, ss: seq<Schedule>, index: int, encode: string -> V)
    requires c.time == Present(GetTime(ss)) && AllWellFormed(ss)
    ensures ProcessCourse(c, index, encode).payload.timeSlots == ExpectedSlots(ss)
    ensures ProcessCourse(c, index, encode).payload.timeRaw == Some(GetTime(ss))
  {
    RoundTrip.RoundTrip(ss);
  }
}

=== FILE: ingest.dfy ===
/** The two helpers the ingest tool uses to flatten a crawled course's
    `schedules` list: `gettime` writes the compact schedule text and
    `get_classroom` picks the classroom name of the first schedule. */
module Ingest {
  import opened Json
  import opened Strings

  /** The `classroom` entry of one crawled schedule: the key may be missing,
      hold `null`, or hold an object. For an object only its `name` entry and
      whether it has any other key matter here. */
  datatype RoomSpec = RoomKeyAbsent | RoomNull | RoomObject(name: Field, otherKeys: nat)

  /** One crawled schedule: `{weekday, intervals, classroom}`. */
  datatype Schedule = Schedule(weekday: int, intervals: seq<string>, classroom: RoomSpec)

  /** What `get_classroom` returns: `None`, a name, or the empty mapping `{}`. */
  datatype Classroom = NoClassroom | RoomName(name: string) | EmptyRoom

  /** The text one schedule contributes: `f"weekday {weekday}, {''.join(intervals)}. "`. */
  function SchedulePiece(s: Schedule): (r: string)
    ensures |r| == 12 + |IntToString(s.weekday)| + |Concat(s.intervals)|
  {
    "weekday " + IntToString(s.weekday) + ", " + Concat(s.intervals) + ". "
  }

  /** The layout of a piece: the keyword, the weekday's decimal text and
      `", "`, then the joined intervals, then the closing `". "`. */
  lemma SchedulePieceLayout(s: Schedule)
    ensures var r, w := SchedulePiece(s), IntToString(s.weekday);
      && r[..8] == "weekday " && r[8..10 + |w|] == w + ", "
      && r[10 + |w|..|r| - 2] == Concat(s.intervals) && r[|r| - 2..] == ". "
  {
    var w, iv := IntToString(s.weekday), Concat(s.intervals);
    ThreeParts("weekday ", w + ", ", iv + ". ");
    assert SchedulePiece(s) == "weekday " + (w + ", ") + (iv + ". ");
  }

  /** `gettime`: the pieces of all schedules, in input order. Non-empty
      text opens with the keyword and closes with `". "`, and every schedule
      adds at least the 13 characters of a one-digit, interval-free piece. */
  function GetTime(ss: seq<Schedule>): (r: string)
    ensures r == "" <==> ss == []
    ensures |r| >= 13 * |ss|
    ensures ss != [] ==> r[..8] == "weekday " && r[|r| - 2..] == ". "
    decreases |ss|
  {
    if ss == [] then ""
    else
      var piece, rest := SchedulePiece(ss[0]), GetTime(ss[1..]);
      SchedulePieceLayout(ss[0]);
      assert (piece + rest)[..8] == piece[..8];
      assert rest != [] ==> (piece + rest)[|piece + rest| - 2..] == rest[|rest| - 2..];
      piece + rest
  }

  /** `gettime` maps list concatenation to text concatenation. */
  lemma {:induction false} GetTimeAppend(a: seq<Schedule>, b: seq<Schedule>)
    ensures GetTime(a + b) == GetTime(a) + GetTime(b)
    decreases |a|
  {
    if a == [] {
      assert a + b == b;
    } else {
      assert (a + b)[0] == a[0];
      assert (a + b)[1..] == a[1..] + b;
      GetTimeAppend(a[1..], b);
    }
  }

  /** The loop's step `time += piece`: one more schedule appends exactly its
      piece, so the left-to-right accumulation builds `GetTime`. */
  lemma GetTimeSnoc(ss: seq<Schedule>, s: Schedule)
    ensures GetTime(ss + [s]) == GetTime(ss) + SchedulePiece(s)
  {
    GetTimeAppend(ss, [s]);
    assert [s][1..] == [];
  }

  /** Whether a `classroom` object is non-empty, i.e. truthy in Python. */
  predicate NonEmptyRoom(spec: RoomSpec)
    requires spec.RoomObject?
  {
    !spec.name.Absent? || spec.otherKeys > 0
  }

  /** `get_classroom`: `None` for no schedules; otherwise looks only at the
      first schedule's `classroom` (defaulting a missing key to `{}`), and
      returns its `name` when the object is non-empty. */
  function GetClassroom(ss: seq<Schedule>): (r: Classroom)
    ensures ss == [] ==> r == NoClassroom
    ensures r.RoomName? <==> ss != [] && ss[0].classroom.RoomObject? && ss[0].classroom.name.Present?
    ensures r.RoomName? ==> r.name == ss[0].classroom.name.value
    ensures r.EmptyRoom? <==>
      ss != [] && (ss[0].classroom.RoomKeyAbsent? || (ss[0].classroom.RoomObject? && !NonEmptyRoom(ss[0].classroom)))
  {
    if |ss| == 0 then NoClassroom
    else
      match ss[0].classroom
      case RoomKeyAbsent => EmptyRoom
      case RoomNull => NoClassroom
      case RoomObject(name, otherKeys) =>
        if !NonEmptyRoom(ss[0].classroom) then EmptyRoom
        else if name.Present? then RoomName(name.value)
        else NoClassroom
  }

  /** Only the first schedule is inspected. */
  lemma GetClassroomFirstOnly(ss: seq<Schedule>, rest: seq<Schedule>)
    requires ss != []
    ensures GetClassroom(ss + rest) == GetClassroom(ss)
  {
    assert (ss + rest)[0] == ss[0];
  }
}

=== FILE: json.dfy ===
/** Values as they appear in the course records the tools pass around as
    JSON dictionaries: an optional value, and a key that may be missing,
    present with `null`, or present with a value. */
module Json {

  datatype Option<+T> = None | Some(value: T)

  /** One key of a JSON object holding values of type `T`. */
  datatype Entry<+T> = Absent | Null | Present(value: T)

  /** A string-valued key. */
  type Field = Entry<string>

  /** Python truthiness of the string `dict.get(key)` returns: only a
      non-empty string is truthy. */
  predicate Truthy(f: Field) {
    f.Present? && f.value != ""
  }

  /** `dict.get(key, default)`, with Python's `None` as `Option.None`: the
      default only replaces a missing key, never a stored `null`. */
  function GetOr<T>(f: Entry<T>, default: Option<T>): (r: Option<T>)
    ensures f.Absent? ==> r == default
    ensures f.Null? ==> r == None
    ensures f.Present? ==> r == Some(f.value)
  {
    match f
    case Absent => default
    case Null => None
    case Present(v) => Some(v)
  }
}

=== FILE: round_trip.dfy ===
/** The ingest tool writes a course's schedules with `gettime`; the upload
    script and the API read them back with `parse_time_slots`. This module
    proves what that round trip yields: one slot per period digit of every
    schedule with a non-negative weekday, in order, under that weekday's
    label. */
module RoundTrip {
  import opened Json
  import opened Strings
  import opened TimeSlots
  import opened Ingest

  /** Every interval of the schedule consists of `[0-9X]` characters. */
  predicate WellFormed(s: Schedule) {
    AllPeriodChars(Concat(s.intervals))
  }

  predicate AllWellFormed(ss: seq<Schedule>) {
    forall i :: 0 <= i < |ss| ==> WellFormed(ss[i])
  }

  /** The label the parser gives a weekday written by `gettime`. */
  function WeekdayLabel(weekday: nat): (r: string) {
    DayLabel(NatToString(weekday))
  }

  /** The groups the pattern should find in the text of `ss`: one per
      schedule with a non-negative weekday and at least one interval character. */
  function ExpectedGroups(ss: seq<Schedule>): (r: seq<Group>)
    decreases |ss|
  {
    if ss == [] then []
    else
      var s := ss[0];
      (if s.weekday >= 0 && Concat(s.intervals) != "" then [Group(NatToString(s.weekday), Concat(s.intervals))] else [])
      + ExpectedGroups(ss[1..])
  }

  /** The slots the round trip should produce: for every schedule with a
      non-negative weekday, one slot per digit of its joined intervals. */
  function ExpectedSlots(ss: seq<Schedule>): (r: seq<Slot>)
    decreases |ss|
  {
    if ss == [] then []
    else
      var s := ss[0];
      (if s.weekday < 0 then [] else DigitSlots(WeekdayLabel(s.weekday), Concat(s.intervals)))
      + ExpectedSlots(ss[1..])
  }

  /** A run of `p`-characters followed by a character outside `p` spans exactly the run. */
  lemma {:induction false} SpanOfRun(x: string, y: string, p: char -> bool)
    requires forall k :: 0 <= k < |x| ==> p(x[k])
    requires y != [] && !p(y[0])
    ensures Span(x + y, p) == |x|
    decreases |x|
  {
    if x == [] {
      assert x + y == y;
    } else {
      assert (x + y)[0] == x[0];
      assert (x + y)[1..] == x[1..] + y;
      SpanOfRun(x[1..], y, p);
    }
  }

  /** Where the parts of a piece sit in its text. */
  lemma PieceLayout(d: string, p: string, rest: string)
    ensures var s := Keyword + d + ", " + p + ". " + rest;
      && |s| == 12 + |d| + |p| + |rest|
      && s[..8] == Keyword
      && s[8..] == d + (", " + p + ". " + rest)
      && s[8 + |d|] == ',' && s[9 + |d|] == ' '
      && s[10 + |d|..] == p + (". " + rest)
      && s[10 + |d| + |p|] == '.'
      && s[8..8 + |d|] == d
      && s[10 + |d|..10 + |d| + |p|] == p
  {
  }

  /** The pattern matches a whole piece `weekday D, P.` and stops before the
      trailing space. */
  lemma MatchPiece(d: string, p: string, rest: string)
    requires d != [] && AllDigits(d)
    requires p != [] && AllPeriodChars(p)
    ensures MatchAt(Keyword + d + ", " + p + ". " + rest) == Some(Match(Group(d, p), 11 + |d| + |p|))
  {
    var s := Keyword + d + ", " + p + ". " + rest;
    var n, q := |d|, |p|;
    PieceLayout(d, p, rest);
    SpanOfRun(d, ", " + p + ". " + rest, IsDigit);
    SpanOfRun(p, ". " + rest, IsPeriodChar);
    assert Span(s[8..], IsDigit) == n;
    assert Span(s[10 + n..], IsPeriodChar) == q;
  }

  /** Apart from its first character, a piece has no `w`. */
  lemma PieceTailLacksW(s: Schedule)
    requires WellFormed(s)
    ensures Lacks(SchedulePiece(s)[1..], 'w')
  {
    var w := IntToString(s.weekday);
    var iv := Concat(s.intervals);
    assert forall k :: 0 <= k < |w| ==> IsDigit(w[k]) || w[k] == '-';
    assert SchedulePiece(s)[1..] == "eekday " + w + ", " + iv + ". ";
  }

  /** A piece that the pattern matches yields its one group; the scan then
      continues with the text after it. */
  lemma {:induction false} FindAllMatchedPiece(s: Schedule, rest: string)
    requires WellFormed(s) && s.weekday >= 0 && Concat(s.intervals) != ""
    ensures FindAll(SchedulePiece(s) + rest) == [Group(NatToString(s.weekday), Concat(s.intervals))] + FindAll(rest)
  {
    PieceShape(s);
    FindAllOfPieceText(NatToString(s.weekday), Concat(s.intervals), rest);
  }

  /** The scan over a piece's text yields the piece's group and resumes
      with the text after it. */
  lemma {:induction false} FindAllOfPieceText(d: string, iv: string, rest: string)
    requires d != [] && AllDigits(d)
    requires iv != [] && AllPeriodChars(iv)
    ensures FindAll(Keyword + d + ", " + iv + ". " + rest) == [Group(d, iv)] + FindAll(rest)
  {
    var piece := Keyword + d + ", " + iv + ". ";
    var m := Match(Group(d, iv), 11 + |d| + |iv|);
    MatchPiece(d, iv, rest);
    FindAllAfterMatch(piece + rest, m);
    PieceLeavesSpace(piece, rest, m.len);
    assert Lacks(" ", 'w');
    FindAllSkips(" ", rest);
    assert FindAll(piece + rest) == [m.group] + FindAll(" " + rest);
  }

  /** A piece with a non-negative weekday, spelled out. */
  lemma PieceShape(s: Schedule)
    requires s.weekday >= 0
    ensures var d, iv := NatToString(s.weekday), Concat(s.intervals);
      SchedulePiece(s) == Keyword + d + ", " + iv + ". "
  {
  }

  /** After a match the scan resumes right behind it. */
  lemma FindAllAfterMatch(x: string, m: Match)
    requires MatchAt(x) == Some(m)
    ensures m.len <= |x| && FindAll(x) == [m.group] + FindAll(x[m.len..])
  {
  }

  /** A match that ends one character before the end of a piece ending in
      a space leaves that space ahead of the rest of the text. */
  lemma PieceLeavesSpace(piece: string, rest: string, len: nat)
    requires |piece| == len + 1 && piece[len] == ' '
    ensures (piece + rest)[len..] == " " + rest
  {
  }

  /** A piece with a negative weekday or no interval characters holds no match. */
  lemma NoMatchAtPiece(s: Schedule, rest: string)
    requires WellFormed(s) && (s.weekday < 0 || Concat(s.intervals) == "")
    ensures MatchAt(SchedulePiece(s) + rest).None?
  {
    var x := SchedulePiece(s) + rest;
    var w := IntToString(s.weekday);
    assert x == Keyword + w + ", " + Concat(s.intervals) + ". " + rest;
    if s.weekday < 0 {
      assert x[8] == '-';
      assert Span(x[8..], IsDigit) == 0;
    } else {
      assert Concat(s.intervals) == "";
      assert x == Keyword + w + ", " + ". " + rest;
      assert x[8..8 + |w|] == w;
      assert x[8 + |w|] == ',';
      assert Span(x[8..], IsDigit) == |w|;
      assert x[10 + |w|] == '.';
      assert Span(x[10 + |w|..], IsPeriodChar) == 0;
    }
  }

  /** The scan skips a piece without a match and yields no group for it. */
  lemma FindAllUnmatchedPiece(s: Schedule, rest: string)
    requires WellFormed(s) && (s.weekday < 0 || Concat(s.intervals) == "")
    ensures FindAll(SchedulePiece(s) + rest) == FindAll(rest)
  {
    var piece := SchedulePiece(s);
    var x := piece + rest;
    PieceTailLacksW(s);
    NoMatchAtPiece(s, rest);
    assert x[1..] == piece[1..] + rest;
    FindAllSkips(piece[1..], rest);
  }

  /** The scan of `gettime`'s text finds exactly the expected groups. */
  lemma {:induction false} FindAllOfGetTime(ss: seq<Schedule>)
    requires AllWellFormed(ss)
    ensures FindAll(GetTime(ss)) == ExpectedGroups(ss)
    decreases |ss|
  {
    if ss != [] {
      var s, rest := ss[0], GetTime(ss[1..]);
      assert GetTime(ss) == SchedulePiece(s) + rest;
      FindAllOfGetTime(ss[1..]);
      if s.weekday >= 0 && Concat(s.intervals) != "" {
        FindAllMatchedPiece(s, rest);
      } else {
        FindAllUnmatchedPiece(s, rest);
      }
    }
  }

  lemma {:induction false} ExpectedGroupSlots(ss: seq<Schedule>)
    ensures GroupSlots(ExpectedGroups(ss)) == ExpectedSlots(ss)
    decreases |ss|
  {
    if ss != [] {
      var s := ss[0];
      var head := if s.weekday >= 0 && Concat(s.intervals) != "" then [Group(NatToString(s.weekday), Concat(s.intervals))] else [];
      GroupSlotsAppend(head, ExpectedGroups(ss[1..]));
      ExpectedGroupSlots(ss[1..]);
    }
  }

  /** Round trip: reading back what `gettime` wrote gives, schedule by
      schedule, one slot per period digit under that schedule's weekday label;
      a schedule with a negative weekday is not recognised and gives none. */
  lemma RoundTrip(ss: seq<Schedule>)
    requires AllWellFormed(ss)
    ensures ParseTimeSlots(GetTime(ss)) == ExpectedSlots(ss)
  {
    BlankCheckAgreesWithScan(GetTime(ss));
    FindAllOfGetTime(ss);
    ExpectedGroupSlots(ss);
  }

  /** Each interval is a single character from `[0-9X]`. */
  predicate SingleCharIntervals(s: Schedule) {
    forall i :: 0 <= i < |s.intervals| ==> |s.intervals[i]| == 1 && IsPeriodChar(s.intervals[i][0])
  }

  /** One slot per digit interval of one schedule, in interval order. */
  function IntervalSlots(weekday: string, intervals: seq<string>): (r: seq<Slot>)
    requires forall i :: 0 <= i < |intervals| ==> |intervals[i]| == 1
    decreases |intervals|
  {
    if intervals == [] then []
    else (if IsDigit(intervals[0][0]) then [MakeSlot(weekday, intervals[0][0])] else []) + IntervalSlots(weekday, intervals[1..])
  }

  function AllIntervalSlots(ss: seq<Schedule>): (r: seq<Slot>)
    requires forall i :: 0 <= i < |ss| ==> ss[i].weekday >= 0 && SingleCharIntervals(ss[i])
    decreases |ss|
  {
    if ss == [] then []
    else
      assert SingleCharIntervals(ss[0]);
      IntervalSlots(WeekdayLabel(ss[0].weekday), ss[0].intervals) + AllIntervalSlots(ss[1..])
  }

  lemma {:induction false} DigitSlotsOfSingleChars(weekday: string, intervals: seq<string>)
    requires forall i :: 0 <= i < |intervals| ==> |intervals[i]| == 1
    ensures DigitSlots(weekday, Concat(intervals)) == IntervalSlots(weekday, intervals)
    decreases |intervals|
  {
    if intervals != [] {
      DigitSlotsAppend(weekday, intervals[0], Concat(intervals[1..]));
      DigitSlotsOfSingleChars(weekday, intervals[1..]);
      assert intervals[0] == [intervals[0][0]];
    }
  }

  lemma {:induction false} ExpectedSlotsOfSingleChars(ss: seq<Schedule>)
    requires forall i :: 0 <= i < |ss| ==> ss[i].weekday >= 0 && SingleCharIntervals(ss[i])
    ensures ExpectedSlots(ss) == AllIntervalSlots(ss)
    decreases |ss|
  {
    if ss != [] {
      DigitSlotsOfSingleChars(WeekdayLabel(ss[0].weekday), ss[0].intervals);
      ExpectedSlotsOfSingleChars(ss[1..]);
    }
  }

  lemma {:induction false} ConcatOfPeriodChars(intervals: seq<string>)
    requires forall i :: 0 <= i < |intervals| ==> |intervals[i]| == 1 && IsPeriodChar(intervals[i][0])
    ensures AllPeriodChars(Concat(intervals))
    decreases |intervals|
  {
    if intervals != [] {
      ConcatOfPeriodChars(intervals[1..]);
      assert intervals[0] == [intervals[0][0]];
    }
  }

  /** With non-negative weekdays and single-character intervals, the round
      trip yields exactly one slot per digit interval, in order, labelled
      with its schedule's weekday; `X` intervals yield nothing. */
  lemma {:induction false} RoundTripSingleCharIntervals(ss: seq<Schedule>)
    requires forall i :: 0 <= i < |ss| ==> ss[i].weekday >= 0 && SingleCharIntervals(ss[i])
    ensures ParseTimeSlots(GetTime(ss)) == AllIntervalSlots(ss)
  {
    SingleCharsWellFormed(ss);
    RoundTrip(ss);
    ExpectedSlotsOfSingleChars(ss);
  }

  lemma SingleCharsWellFormed(ss: seq<Schedule>)
    requires forall i :: 0 <= i < |ss| ==> SingleCharIntervals(ss[i])
    ensures AllWellFormed(ss)
  {
    forall i | 0 <= i < |ss| ensures WellFormed(ss[i]) {
      ConcatOfPeriodChars(ss[i].intervals);
    }
  }

  /** A schedule with no intervals contributes no slots. */
  lemma EmptyIntervalsGiveNoSlots(weekday: int, room: RoomSpec)
    ensures ParseTimeSlots(GetTime([Schedule(weekday, [], room)])) == []
  {
    RoundTrip([Schedule(weekday, [], room)]);
  }

  /** A schedule with a negative weekday is written as `weekday -N, ...`,
      which the pattern does not match: it contributes no slots. */
  lemma NegativeWeekdayGivesNoSlots(s: Schedule)
    requires WellFormed(s) && s.weekday < 0
    ensures ParseTimeSlots(GetTime([s])) == []
  {
    RoundTrip([s]);
  }

  lemma DigitSlotsOfTen(l: string)
    requires l == "星期一"
    ensures DigitSlots(l, "10") == [Slot("星期一", 1, "星期一第1節"), Slot("星期一", 0, "星期一第0節")]
  {
    assert "10"[1..] == "0";
    assert DigitSlots(l, "0") == [MakeSlot(l, '0')] + DigitSlots(l, "");
    assert DigitSlots(l, "10") == [MakeSlot(l, '1')] + DigitSlots(l, "0");
    assert MakeSlot(l, '1') == Slot("星期一", 1, "星期一第1節");
    assert MakeSlot(l, '0') == Slot("星期一", 0, "星期一第0節");
  }

  /** A multi-character interval such as `"10"` is split into one slot per digit. */
  lemma MultiCharIntervalIsSplit(room: RoomSpec)
    ensures ParseTimeSlots(GetTime([Schedule(1, ["10"], room)]))
         == [Slot("星期一", 1, "星期一第1節"), Slot("星期一", 0, "星期一第0節")]
  {
    var s := Schedule(1, ["10"], room);
    assert Concat(s.intervals) == "10";
    assert AllWellFormed([s]);
    RoundTrip([s]);
    assert NatToString(1) == "1";
    var l := "星期一";
    assert WeekdayLabel(1) == l;
    DigitSlotsOfTen(l);
    assert [s][1..] == [];
    assert ExpectedSlots([s]) == DigitSlots(l, "10") + ExpectedSlots([]);
  }
}

=== FILE: scheduler.dfy ===
/** The timetable builder of the course API: `has_time_conflict`,
    `generate_schedule` (after its lookups) and the `recommend_courses` glue.

    `generate_schedule` sorts the resolved courses by credit, largest first
    and stable on ties, then makes one first-fit pass: a course is rejected
    when it would push the running total over the ceiling, else when it
    clashes with an already accepted course (the first such course is named),
    and is accepted otherwise. The pass is `Fold` over `Step`; its state
    carries the running total and the accepted courses. */
module Scheduler {
  import opened Json
  import opened Strings
  import opened TimeSlots

  /** A resolved course as the builder reads it: the payload's `code`,
      `name` (as Python prints it), `credit` and parsed `time_slots`. */
  datatype Course = Course(code: string, name: string, credit: int, slots: seq<Slot>)

  // ---------------------------------------------------------------------
  // Conflict detection
  // ---------------------------------------------------------------------

  /** Two slots occupy the same time: equal weekday and equal period. */
  predicate SameTime(a: Slot, b: Slot) {
    a.weekday == b.weekday && a.period == b.period
  }

  /** Some slot of `b` occupies the same time as `s` (the inner loop). */
  function ClashesWithAny(s: Slot, b: seq<Slot>): (r: bool)
    ensures r <==> exists j :: 0 <= j < |b| && SameTime(s, b[j])
    decreases |b|
  {
    if b == [] then false else SameTime(s, b[0]) || ClashesWithAny(s, b[1..])
  }

  /** `has_time_conflict`: true iff some slot of `a` and some slot of `b`
      have equal weekday and equal period. */
  function HasTimeConflict(a: seq<Slot>, b: seq<Slot>): (r: bool)
    ensures r <==> exists i, j :: 0 <= i < |a| && 0 <= j < |b| && SameTime(a[i], b[j])
    decreases |a|
  {
    if a == [] then false else ClashesWithAny(a[0], b) || HasTimeConflict(a[1..], b)
  }

  /** The conflict test is symmetric, and a course without slots conflicts
      with nothing. */
  lemma ConflictSymmetric(a: seq<Slot>, b: seq<Slot>)
    ensures HasTimeConflict(a, b) == HasTimeConflict(b, a)
    ensures !HasTimeConflict(a, []) && !HasTimeConflict([], a)
  {
    if HasTimeConflict(a, b) {
      var i, j :| 0 <= i < |a| && 0 <= j < |b| && SameTime(a[i], b[j]);
      assert SameTime(b[j], a[i]);
    }
    if HasTimeConflict(b, a) {
      var j, i :| 0 <= j < |b| && 0 <= i < |a| && SameTime(b[j], a[i]);
      assert SameTime(a[i], b[j]);
    }
  }

  /** No two distinct courses of `cs` have a time conflict. */
  predicate Compatible(cs: seq<Course>) {
    forall i, j :: 0 <= i < |cs| && 0 <= j < |cs| && i != j ==> !HasTimeConflict(cs[i].slots, cs[j].slots)
  }

  // ---------------------------------------------------------------------
  // Stable sort by credit, largest first
  // ---------------------------------------------------------------------

  predicate SortedByCreditDesc(cs: seq<Course>) {
    forall i, j :: 0 <= i < j < |cs| ==> cs[i].credit >= cs[j].credit
  }

  /** The courses of `cs` with credit `k`, in order. Two lists agree on
      these for every `k` iff one is a stable rearrangement of the other. */
  function WithCredit(cs: seq<Course>, k: int): (r: seq<Course>)
    ensures forall x :: x in r <==> x in cs && x.credit == k
    decreases |cs|
  {
    if cs == [] then [] else (if cs[0].credit == k then [cs[0]] else []) + WithCredit(cs[1..], k)
  }

  /** Insertion of `c` into a credit-descending list, before every course
      whose credit is not larger (so `c` goes ahead of equal-credit courses
      that come after it in the input). */
  function InsertByCredit(c: Course, cs: seq<Course>): (r: seq<Course>)
    requires SortedByCreditDesc(cs)
    ensures SortedByCreditDesc(r)
    ensures multiset(r) == multiset(cs) + multiset{c}
    ensures r != [] && (r[0] == c || (cs != [] && r[0] == cs[0]))
    decreases |cs|
  {
    if cs == [] || cs[0].credit <= c.credit then
      SortedCons(c, cs);
      [c] + cs
    else
      var rest := InsertByCredit(c, cs[1..]);
      assert cs == [cs[0]] + cs[1..];
      SortedCons(cs[0], rest);
      [cs[0]] + rest
  }

  /** A course of at least the head's credit can go in front of a sorted list. */
  lemma SortedCons(h: Course, t: seq<Course>)
    requires SortedByCreditDesc(t)
    requires t == [] || h.credit >= t[0].credit
    ensures SortedByCreditDesc([h] + t)
  {
    var s := [h] + t;
    forall i, j | 0 <= i < j < |s| ensures s[i].credit >= s[j].credit {
      if i == 0 {
        assert s[j] == t[j - 1];
        assert t[0].credit >= t[j - 1].credit || j == 1;
      } else {
        assert s[i] == t[i - 1] && s[j] == t[j - 1];
      }
    }
  }

  /** Inserting `c` puts it ahead of the equal-credit courses of `cs` and
      leaves every other credit's sublist alone. */
  lemma {:induction false} InsertKeepsOrder(c: Course, cs: seq<Course>, k: int)
    requires SortedByCreditDesc(cs)
    ensures WithCredit(InsertByCredit(c, cs), k) == (if c.credit == k then [c] + WithCredit(cs, k) else WithCredit(cs, k))
    decreases |cs|
  {
    var r := InsertByCredit(c, cs);
    if cs == [] || cs[0].credit <= c.credit {
      assert r == [c] + cs;
      assert r[1..] == cs;
      WithCreditHead(r, k);
      assert [] + WithCredit(cs, k) == WithCredit(cs, k);
    } else {
      var rest := InsertByCredit(c, cs[1..]);
      assert r == [cs[0]] + rest;
      assert r[1..] == rest;
      InsertKeepsOrder(c, cs[1..], k);
      WithCreditHead(r, k);
      WithCreditHead(cs, k);
      if cs[0].credit == k {
        assert c.credit != k;
      } else {
        assert [] + WithCredit(rest, k) == WithCredit(rest, k);
        assert [] + WithCredit(cs[1..], k) == WithCredit(cs[1..], k);
      }
    }
  }

  /** `courses.sort(key=credit, reverse=True)`: Python's sort is stable,
      also when reversed. */
  function SortByCreditDesc(cs: seq<Course>): (r: seq<Course>)
    ensures SortedByCreditDesc(r)
    ensures multiset(r) == multiset(cs)
    ensures forall k :: WithCredit(r, k) == WithCredit(cs, k)
    decreases |cs|
  {
    if cs == [] then []
    else
      assert cs == [cs[0]] + cs[1..];
      var rest := SortByCreditDesc(cs[1..]);
      assert forall k :: WithCredit(InsertByCredit(cs[0], rest), k) == WithCredit(cs, k) by {
        forall k ensures WithCredit(InsertByCredit(cs[0], rest), k) == WithCredit(cs, k) {
          InsertKeepsOrder(cs[0], rest, k);
        }
      }
      InsertByCredit(cs[0], rest)
  }

  lemma WithCreditHead(a: seq<Course>, k: int)
    requires a != []
    ensures WithCredit(a, k) == (if a[0].credit == k then [a[0]] else []) + WithCredit(a[1..], k)
  {
  }

  /** When `a`'s head also occurs in `b`, `b`'s head has at least its credit. */
  lemma HeadCreditBound(a: seq<Course>, b: seq<Course>)
    requires a != [] && b != [] && SortedByCreditDesc(b)
    requires WithCredit(a, a[0].credit) == WithCredit(b, a[0].credit)
    ensures b[0].credit >= a[0].credit
  {
    var m := a[0].credit;
    WithCreditHead(a, m);
    assert WithCredit(a, m)[0] == a[0];
    assert a[0] in WithCredit(b, m);
    assert a[0] in b;
    var j :| 0 <= j < |b| && b[j] == a[0];
    assert b[0].credit >= b[j].credit;
  }

  /** Two sorted lists with the same per-credit sublists start alike. */
  lemma SameHeads(a: seq<Course>, b: seq<Course>)
    requires a != [] && b != []
    requires SortedByCreditDesc(a) && SortedByCreditDesc(b)
    requires forall k :: WithCredit(a, k) == WithCredit(b, k)
    ensures a[0] == b[0]
  {
    var m := a[0].credit;
    HeadCreditBound(a, b);
    assert WithCredit(b, b[0].credit) == WithCredit(a, b[0].credit);
    HeadCreditBound(b, a);
    assert b[0].credit == m;
    WithCreditHead(a, m);
    WithCreditHead(b, m);
    assert WithCredit(a, m)[0] == a[0];
    assert WithCredit(b, m)[0] == b[0];
  }

  /** A sorted list is fixed by its per-credit sublists: any credit-descending
      stable rearrangement of the input, which is what Python's sort
      promises, equals `SortByCreditDesc`. */
  lemma {:induction false} StableSortUnique(a: seq<Course>, b: seq<Course>)
    requires SortedByCreditDesc(a) && SortedByCreditDesc(b)
    requires forall k :: WithCredit(a, k) == WithCredit(b, k)
    ensures a == b
    decreases |a|
  {
    if a == [] || b == [] {
      if a != [] {
        WithCreditHead(a, a[0].credit);
      }
      if b != [] {
        WithCreditHead(b, b[0].credit);
      }
    } else {
      var m := a[0].credit;
      SameHeads(a, b);
      forall k ensures WithCredit(a[1..], k) == WithCredit(b[1..], k) {
        WithCreditHead(a, k);
        WithCreditHead(b, k);
        assert WithCredit(a, k) == WithCredit(b, k);
        if k == m {
          assert WithCredit(a[1..], m) == WithCredit(a, m)[1..];
          assert WithCredit(b[1..], m) == WithCredit(b, m)[1..];
        } else {
          assert b[0].credit != k;
          assert WithCredit(a, k) == [] + WithCredit(a[1..], k);
          assert [] + WithCredit(a[1..], k) == WithCredit(a[1..], k);
          assert [] + WithCredit(b[1..], k) == WithCredit(b[1..], k);
        }
      }
      StableSortUnique(a[1..], b[1..]);
      assert a == [a[0]] + a[1..] && b == [b[0]] + b[1..];
    }
  }

  // ---------------------------------------------------------------------
  // The greedy pass
  // ---------------------------------------------------------------------

  /** Why a course was turned down. */
  datatype Rejection = OverCredit(course: Course) | TimeClash(course: Course, other: Course)

  /** The reason strings of `generate_schedule`: a credit rejection names
      the course and its credits, a conflict rejection names the course and
      the accepted course it clashes with. */
  function RejectionText(rj: Rejection): (r: string)
    ensures rj.OverCredit? ==> |r| == 34 + |rj.course.name| + |IntToString(rj.course.credit)|
    ensures rj.TimeClash? ==> |r| == 31 + |rj.course.name| + |rj.other.name|
    ensures rj.OverCredit? ==>
      && r[..23] == "Credit limit exceeded: " && r[23..23 + |rj.course.name|] == rj.course.name
      && r[23 + |rj.course.name|..] == " (" + IntToString(rj.course.credit) + " credits)"
    ensures rj.TimeClash? ==>
      && r[..15] == "Time conflict: " && r[15..15 + |rj.course.name|] == rj.course.name
      && r[15 + |rj.course.name|..] == " conflicts with " + rj.other.name
  {
    match rj
    case OverCredit(c) =>
      var tail := " (" + IntToString(c.credit) + " credits)";
      ThreeParts("Credit limit exceeded: ", c.name, tail);
      "Credit limit exceeded: " + c.name + tail
    case TimeClash(c, o) =>
      var tail := " conflicts with " + o.name;
      ThreeParts("Time conflict: ", c.name, tail);
      "Time conflict: " + c.name + tail
  }

  /** The two kinds of reason never produce the same text: the opening
      words tell a credit rejection from a time conflict. */
  lemma RejectionKindIsVisible(a: Rejection, b: Rejection)
    requires RejectionText(a) == RejectionText(b)
    ensures a.OverCredit? <==> b.OverCredit?
  {
    assert RejectionText(a)[0] == RejectionText(b)[0];
  }

  function RejectionTexts(rs: seq<Rejection>): (r: seq<string>)
    ensures |r| == |rs|
    ensures forall i :: 0 <= i < |rs| ==> r[i] == RejectionText(rs[i])
  {
    seq(|rs|, i requires 0 <= i < |rs| => RejectionText(rs[i]))
  }

  /** The courses the rejections are about, in order. */
  function Subjects(rs: seq<Rejection>): (r: seq<Course>)
    ensures |r| == |rs|
    ensures forall i :: 0 <= i < |rs| ==> r[i] == rs[i].course
    decreases |rs|
  {
    if rs == [] then [] else [rs[0].course] + Subjects(rs[1..])
  }

  /** The state of the pass: accepted courses, their running credit total
      and the rejections so far. */
  datatype Builder = Builder(selected: seq<Course>, total: int, rejected: seq<Rejection>)

  const Start: Builder := Builder([], 0, [])

  /** Python's `sum` of the credits, left to right. */
  function SumCredits(cs: seq<Course>): (total: int)
    decreases |cs|
  {
    if cs == [] then 0 else SumCredits(cs[..|cs| - 1]) + cs[|cs| - 1].credit
  }

  /** What the pass keeps true: the total is the sum of the accepted
      credits, accepted courses are pairwise conflict-free, and once any
      course is accepted the total is within the ceiling. */
  predicate Consistent(b: Builder, maxCredits: int) {
    && b.total == SumCredits(b.selected)
    && Compatible(b.selected)
    && (b.selected == [] || b.total <= maxCredits)
  }

  /** The first accepted course that `c` conflicts with, in acceptance order. */
  function FirstConflict(c: Course, accepted: seq<Course>): (r: Option<nat>)
    ensures r.None? <==> forall j :: 0 <= j < |accepted| ==> !HasTimeConflict(c.slots, accepted[j].slots)
    ensures r.Some? ==> && r.value < |accepted|
                        && HasTimeConflict(c.slots, accepted[r.value].slots)
                        && forall j :: 0 <= j < r.value ==> !HasTimeConflict(c.slots, accepted[j].slots)
    decreases |accepted|
  {
    if accepted == [] then None
    else if HasTimeConflict(c.slots, accepted[0].slots) then Some(0)
    else
      match FirstConflict(c, accepted[1..])
      case None => None
      case Some(k) => Some(k + 1)
  }

  lemma AcceptKeepsConsistent(b: Builder, c: Course, maxCredits: int)
    requires Consistent(b, maxCredits)
    requires b.total + c.credit <= maxCredits
    requires forall j :: 0 <= j < |b.selected| ==> !HasTimeConflict(c.slots, b.selected[j].slots)
    ensures Consistent(Builder(b.selected + [c], b.total + c.credit, b.rejected), maxCredits)
  {
    var s := b.selected + [c];
    assert s[..|s| - 1] == b.selected;
    forall i, j | 0 <= i < |s| && 0 <= j < |s| && i != j
      ensures !HasTimeConflict(s[i].slots, s[j].slots)
    {
      if j == |s| - 1 {
        ConflictSymmetric(s[i].slots, c.slots);
      } else if i == |s| - 1 {
        assert !HasTimeConflict(c.slots, b.selected[j].slots);
      } else {
        assert s[i] == b.selected[i] && s[j] == b.selected[j];
      }
    }
  }

  /** `b2` records exactly one outcome for `c`: `c` appended to the accepted
      courses, or one rejection about `c` appended to the rejections. */
  predicate OneOutcome(b: Builder, b2: Builder, c: Course) {
    || (b2.selected == b.selected + [c] && b2.rejected == b.rejected)
    || (&& b2.selected == b.selected
        && |b2.rejected| == |b.rejected| + 1
        && b2.rejected[..|b.rejected|] == b.rejected
        && b2.rejected[|b.rejected|].course == c)
  }

  /** One iteration of the pass over course `c`. */
  function Step(b: Builder, c: Course, maxCredits: int): (r: Builder)
    requires Consistent(b, maxCredits)
    ensures Consistent(r, maxCredits)
    ensures OneOutcome(b, r, c)
    ensures b.total + c.credit > maxCredits ==> r == b.(rejected := b.rejected + [OverCredit(c)])
    ensures b.total + c.credit <= maxCredits && FirstConflict(c, b.selected).Some? ==>
      r == b.(rejected := b.rejected + [TimeClash(c, b.selected[FirstConflict(c, b.selected).value])])
    ensures r.selected == b.selected + [c] <==>
      b.total + c.credit <= maxCredits && forall j :: 0 <= j < |b.selected| ==> !HasTimeConflict(c.slots, b.selected[j].slots)
    ensures r.selected == b.selected + [c] ==> r.total == b.total + c.credit
  {
    if b.total + c.credit > maxCredits then
      b.(rejected := b.rejected + [OverCredit(c)])
    else
      match FirstConflict(c, b.selected)
      case Some(k) => b.(rejected := b.rejected + [TimeClash(c, b.selected[k])])
      case None =>
        AcceptKeepsConsistent(b, c, maxCredits);
        Builder(b.selected + [c], b.total + c.credit, b.rejected)
  }

  /** `cs` is an interleaving of `xs` and `ys`: every element of `cs` goes to
      exactly one of them, and each keeps the order of `cs`. */
  predicate Interleaving(cs: seq<Course>, xs: seq<Course>, ys: seq<Course>)
    decreases |cs|
  {
    if cs == [] then xs == [] && ys == []
    else
      || (xs != [] && xs[0] == cs[0] && Interleaving(cs[1..], xs[1..], ys))
      || (ys != [] && ys[0] == cs[0] && Interleaving(cs[1..], xs, ys[1..]))
  }

  /** `xs` keeps some of the elements of `cs`, in their order. */
  predicate IsSubsequence(xs: seq<Course>, cs: seq<Course>)
    decreases |cs|
  {
    if xs == [] then true
    else if cs == [] then false
    else (xs[0] == cs[0] && IsSubsequence(xs[1..], cs[1..])) || IsSubsequence(xs, cs[1..])
  }

  lemma {:induction false} InterleavingAccounts(cs: seq<Course>, xs: seq<Course>, ys: seq<Course>)
    requires Interleaving(cs, xs, ys)
    ensures |xs| + |ys| == |cs|
    ensures multiset(xs) + multiset(ys) == multiset(cs)
    ensures IsSubsequence(xs, cs) && IsSubsequence(ys, cs)
    decreases |cs|
  {
    if cs != [] {
      assert cs == [cs[0]] + cs[1..];
      if xs != [] && xs[0] == cs[0] && Interleaving(cs[1..], xs[1..], ys) {
        InterleavingAccounts(cs[1..], xs[1..], ys);
        assert xs == [xs[0]] + xs[1..];
        if ys != [] {
          assert !(ys[0] == cs[0] && IsSubsequence(ys[1..], cs[1..])) ==> IsSubsequence(ys, cs[1..]);
        }
      } else {
        InterleavingAccounts(cs[1..], xs, ys[1..]);
        assert ys == [ys[0]] + ys[1..];
      }
    }
  }

  /** `r` extends `b`: it keeps `b`'s accepted courses and rejections as prefixes. */
  predicate Extends(r: Builder, b: Builder) {
    && |b.selected| <= |r.selected| && r.selected[..|b.selected|] == b.selected
    && |b.rejected| <= |r.rejected| && r.rejected[..|b.rejected|] == b.rejected
  }

  function Accepted(r: Builder, b: Builder): (xs: seq<Course>)
    requires Extends(r, b)
  {
    r.selected[|b.selected|..]
  }

  function Rejected(r: Builder, b: Builder): (xs: seq<Course>)
    requires Extends(r, b)
  {
    Subjects(r.rejected[|b.rejected|..])
  }

  lemma {:induction false} FoldStep(b: Builder, b2: Builder, r: Builder, cs: seq<Course>)
    requires cs != [] && OneOutcome(b, b2, cs[0])
    requires Extends(r, b2) && Interleaving(cs[1..], Accepted(r, b2), Rejected(r, b2))
    ensures Extends(r, b) && Interleaving(cs, Accepted(r, b), Rejected(r, b))
  {
    if |b2.rejected| == |b.rejected| {
      FoldStepAccepted(b, b2, r, cs);
    } else {
      var rj := b2.rejected[|b.rejected|];
      assert b2.rejected == b.rejected + [rj];
      FoldStepRejected(b, b2, r, cs, rj);
    }
  }

  lemma {:induction false} FoldStepAccepted(b: Builder, b2: Builder, r: Builder, cs: seq<Course>)
    requires cs != [] && b2.selected == b.selected + [cs[0]] && b2.rejected == b.rejected
    requires Extends(r, b2) && Interleaving(cs[1..], Accepted(r, b2), Rejected(r, b2))
    ensures Extends(r, b) && Interleaving(cs, Accepted(r, b), Rejected(r, b))
  {
    var n := |b.selected|;
    assert r.selected[..n] == b2.selected[..n];
    assert Accepted(r, b) == [cs[0]] + Accepted(r, b2);
  }

  lemma {:induction false} FoldStepRejected(b: Builder, b2: Builder, r: Builder, cs: seq<Course>, rj: Rejection)
    requires cs != [] && b2.selected == b.selected
    requires b2.rejected == b.rejected + [rj] && rj.course == cs[0]
    requires Extends(r, b2) && Interleaving(cs[1..], Accepted(r, b2), Rejected(r, b2))
    ensures Extends(r, b) && Interleaving(cs, Accepted(r, b), Rejected(r, b))
  {
    var m := |b.rejected|;
    var tail := r.rejected[m..];
    assert tail[0] == rj;
    assert tail[1..] == r.rejected[m + 1..];
    assert Subjects(tail) == [rj.course] + Subjects(tail[1..]);
  }

  /** The first-fit pass over `cs`: one outcome per course, in order. */
  function Fold(b: Builder, cs: seq<Course>, maxCredits: int): (r: Builder)
    requires Consistent(b, maxCredits)
    ensures Consistent(r, maxCredits)
    ensures Extends(r, b)
    ensures Interleaving(cs, Accepted(r, b), Rejected(r, b))
    decreases |cs|
  {
    if cs == [] then b
    else
      var b2 := Step(b, cs[0], maxCredits);
      var r := Fold(b2, cs[1..], maxCredits);
      FoldStep(b, b2, r, cs);
      r
  }

  /** The pass over the credit-sorted courses. */
  function Build(courses: seq<Course>, maxCredits: int): (b: Builder)
    requires Consistent(Start, maxCredits)
  {
    Fold(Start, SortByCreditDesc(courses), maxCredits)
  }

  /** A rejection still holds against the final state `b`: the course does
      not fit the final credit total, or it conflicts with a course `b` kept. */
  predicate Blocked(rj: Rejection, b: Builder, maxCredits: int) {
    match rj
    case OverCredit(c) => b.total + c.credit > maxCredits
    case TimeClash(c, o) => o in b.selected && HasTimeConflict(c.slots, o.slots)
  }

  predicate AllBlocked(b: Builder, maxCredits: int) {
    forall i :: 0 <= i < |b.rejected| ==> Blocked(b.rejected[i], b, maxCredits)
  }

  lemma {:induction false} FoldKeepsBlocked(b: Builder, cs: seq<Course>, maxCredits: int)
    requires Consistent(b, maxCredits) && AllBlocked(b, maxCredits)
    requires forall i :: 0 <= i < |cs| ==> cs[i].credit >= 0
    ensures AllBlocked(Fold(b, cs, maxCredits), maxCredits)
    decreases |cs|
  {
    if cs != [] {
      var c := cs[0];
      var b2 := Step(b, c, maxCredits);
      forall i | 0 <= i < |b2.rejected| ensures Blocked(b2.rejected[i], b2, maxCredits) {
        if i < |b.rejected| {
          assert b2.rejected[i] == b.rejected[i];
          StepKeepsBlocked(b, c, maxCredits, b.rejected[i]);
        } else {
          NewRejectionBlocked(b, c, maxCredits);
        }
      }
      FoldKeepsBlocked(b2, cs[1..], maxCredits);
    }
  }

  /** A rejection that holds before a step still holds after it: the total
      cannot fall when the course's credit is non-negative, and accepted
      courses stay accepted. */
  lemma StepKeepsBlocked(b: Builder, c: Course, maxCredits: int, rj: Rejection)
    requires Consistent(b, maxCredits) && c.credit >= 0
    requires Blocked(rj, b, maxCredits)
    ensures Blocked(rj, Step(b, c, maxCredits), maxCredits)
  {
    var b2 := Step(b, c, maxCredits);
    if b.total + c.credit > maxCredits || FirstConflict(c, b.selected).Some? {
      assert b2.selected == b.selected && b2.total == b.total;
    } else {
      assert b2.selected == b.selected + [c] && b2.total == b.total + c.credit;
      match rj
      case OverCredit(_) =>
      case TimeClash(_, o) => assert o in b2.selected;
    }
  }

  /** The rejection a step adds, if any, holds against the state after it. */
  lemma NewRejectionBlocked(b: Builder, c: Course, maxCredits: int)
    requires Consistent(b, maxCredits)
    ensures var b2 := Step(b, c, maxCredits);
      forall i :: |b.rejected| <= i < |b2.rejected| ==> Blocked(b2.rejected[i], b2, maxCredits)
  {
    var b2 := Step(b, c, maxCredits);
    if b.total + c.credit > maxCredits {
      assert b2 == b.(rejected := b.rejected + [OverCredit(c)]);
    } else if FirstConflict(c, b.selected).Some? {
      var k := FirstConflict(c, b.selected).value;
      assert b2 == b.(rejected := b.rejected + [TimeClash(c, b.selected[k])]);
      assert b.selected[k] in b2.selected;
    } else {
      assert |b2.rejected| == |b.rejected|;
    }
  }

  /** Greedy maximality (for non-negative credits): no rejected course could
      be added to the final timetable, because it would exceed the ceiling
      or it conflicts with a course that was kept. */
  lemma GreedyIsMaximal(courses: seq<Course>, maxCredits: int)
    requires forall i :: 0 <= i < |courses| ==> courses[i].credit >= 0
    ensures AllBlocked(Build(courses, maxCredits), maxCredits)
  {
    var sorted := SortByCreditDesc(courses);
    forall i | 0 <= i < |sorted| ensures sorted[i].credit >= 0 {
      assert sorted[i] in multiset(courses);
    }
    FoldKeepsBlocked(Start, sorted, maxCredits);
  }

  // ---------------------------------------------------------------------
  // generate_schedule and its callers
  // ---------------------------------------------------------------------

  datatype ScheduleResult = ScheduleResult(schedule: seq<Course>, totalCredits: int, conflicts: seq<string>, message: string)

  const NoCoursesMessage: string := "No valid courses found"

  /** The success message, with the number written in decimal. */
  function SuccessMessage(n: nat): (r: string)
    ensures |r| == 31 + |NatToString(n)|
    ensures r[..23] == "Successfully scheduled " && r[|r| - 8..] == " courses"
    ensures r[23..|r| - 8] == NatToString(n)
  {
    ThreeParts("Successfully scheduled ", NatToString(n), " courses");
    "Successfully scheduled " + NatToString(n) + " courses"
  }

  /** The count can be read back from the success message, and no success
      message is the empty-input message. */
  lemma SuccessMessageInjective(m: nat, n: nat)
    ensures SuccessMessage(m) == SuccessMessage(n) <==> m == n
    ensures SuccessMessage(n) != NoCoursesMessage
  {
    if SuccessMessage(m) == SuccessMessage(n) {
      NatToStringInjective(m, n);
    }
    assert SuccessMessage(n)[0] != NoCoursesMessage[0];
  }

  /** `generate_schedule` after the lookups, on the resolved courses. */
  function GenerateSchedule(courses: seq<Course>, maxCredits: int): (r: ScheduleResult)
    ensures courses == [] ==> r == ScheduleResult([], 0, [], NoCoursesMessage)
    ensures courses != [] ==> r.message == SuccessMessage(|r.schedule|)
    ensures r.totalCredits == SumCredits(r.schedule)
    ensures maxCredits >= 0 || r.schedule != [] ==> r.totalCredits <= maxCredits
    ensures Compatible(r.schedule)
    ensures |r.schedule| + |r.conflicts| == |courses|
    ensures multiset(r.schedule) <= multiset(courses)
    ensures IsSubsequence(r.schedule, SortByCreditDesc(courses))
    ensures courses != [] ==> var b := Build(courses, maxCredits);
      && r.schedule == b.selected && r.totalCredits == b.total
      && |r.conflicts| == |b.rejected|
      && forall i :: 0 <= i < |r.conflicts| ==> r.conflicts[i] == RejectionText(b.rejected[i])
  {
    if courses == [] then ScheduleResult([], 0, [], NoCoursesMessage)
    else
      var b := Build(courses, maxCredits);
      var sorted := SortByCreditDesc(courses);
      assert Accepted(b, Start) == b.selected;
      assert b.rejected[0..] == b.rejected;
      InterleavingAccounts(sorted, b.selected, Subjects(b.rejected));
      assert |multiset(sorted)| == |multiset(b.selected) + multiset(Subjects(b.rejected))|;
      ScheduleResult(b.selected, b.total, RejectionTexts(b.rejected), SuccessMessage(|b.selected|))
  }

  /** Every outcome of the pass is a course of the input: the accepted
      courses and the subjects of the rejections together are exactly the
      resolved courses, each in credit-sorted order. */
  lemma BuildAccountsForEveryCourse(courses: seq<Course>, maxCredits: int)
    requires Consistent(Start, maxCredits)
    ensures var b := Build(courses, maxCredits);
      && multiset(b.selected) + multiset(Subjects(b.rejected)) == multiset(courses)
      && IsSubsequence(Subjects(b.rejected), SortByCreditDesc(courses))
  {
    var b := Build(courses, maxCredits);
    assert Accepted(b, Start) == b.selected;
    assert b.rejected[0..] == b.rejected;
    InterleavingAccounts(SortByCreditDesc(courses), b.selected, Subjects(b.rejected));
  }

  /** The lookup loop: each code resolved in order, missing codes dropped. */
  function Resolve(codes: seq<string>, lookup: string -> Option<Course>): (r: seq<Course>)
    ensures |r| <= |codes|
    ensures forall c :: c in r ==> exists code :: code in codes && lookup(code) == Some(c)
    ensures r == [] <==> forall code :: code in codes ==> lookup(code).None?
    decreases |codes|
  {
    if codes == [] then []
    else
      var rest := Resolve(codes[1..], lookup);
      assert forall code :: code in codes[1..] ==> code in codes;
      assert codes == [codes[0]] + codes[1..];
      match lookup(codes[0])
      case Some(c) => [c] + rest
      case None => rest
  }

  /** A single code contributes its course when the lookup finds one and
      nothing otherwise. */
  lemma ResolveSingle(code: string, lookup: string -> Option<Course>)
    ensures lookup(code).Some? ==> Resolve([code], lookup) == [lookup(code).value]
    ensures lookup(code).None? ==> Resolve([code], lookup) == []
  {
    assert [code][1..] == [];
  }

  /** Resolving a concatenation of code lists concatenates the results, so
      with `ResolveSingle` every resolving code contributes its course, in
      code order, once per occurrence. */
  lemma {:induction false} ResolveAppend(a: seq<string>, b: seq<string>, lookup: string -> Option<Course>)
    ensures Resolve(a + b, lookup) == Resolve(a, lookup) + Resolve(b, lookup)
    decreases |a|
  {
    if a == [] {
      assert a + b == b;
    } else {
      assert (a + b)[0] == a[0];
      assert (a + b)[1..] == a[1..] + b;
      ResolveAppend(a[1..], b, lookup);
    }
  }

  /** `generate_schedule(course_codes, max_credits)` with the database lookup
      as a parameter. */
  function GenerateScheduleForCodes(codes: seq<string>, lookup: string -> Option<Course>, maxCredits: int): (r: ScheduleResult)
    ensures (forall code :: code in codes ==> lookup(code).None?) ==> r.message == NoCoursesMessage
    ensures (exists code :: code in codes && lookup(code).Some?) ==> r.message == SuccessMessage(|r.schedule|)
    ensures r.totalCredits == SumCredits(r.schedule)
    ensures maxCredits >= 0 || r.schedule != [] ==> r.totalCredits <= maxCredits
    ensures Compatible(r.schedule)
    ensures |r.schedule| + |r.conflicts| == |Resolve(codes, lookup)| <= |codes|
    ensures forall c :: c in r.schedule ==> exists code :: code in codes && lookup(code) == Some(c)
  {
    var courses := Resolve(codes, lookup);
    var r := GenerateSchedule(courses, maxCredits);
    assert forall c :: c in r.schedule ==> c in courses by {
      forall c | c in r.schedule ensures c in courses {
        assert c in multiset(r.schedule);
      }
    }
    r
  }

  /** What `recommend_courses` returns. */
  datatype Recommendation = Recommendation(
    query: string, totalCandidates: nat, recommendedSchedule: seq<Course>,
    totalCredits: int, conflicts: seq<string>, message: string)

  function Codes(cs: seq<Course>): (r: seq<string>)
    ensures |r| == |cs| && forall i :: 0 <= i < |cs| ==> r[i] == cs[i].code
  {
    seq(|cs|, i requires 0 <= i < |cs| => cs[i].code)
  }

  /** `recommend_courses`: the search results (supplied by the vector index)
      are looked up again by code and scheduled; the result copies the
      schedule's fields and counts the candidates. */
  function RecommendCourses(query: string, candidates: seq<Course>, lookup: string -> Option<Course>, maxCredits: int): (r: Recommendation)
    ensures r.query == query && r.totalCandidates == |candidates|
    ensures var s := GenerateScheduleForCodes(Codes(candidates), lookup, maxCredits);
      && r.recommendedSchedule == s.schedule && r.totalCredits == s.totalCredits
      && r.conflicts == s.conflicts && r.message == s.message
  {
    var s := GenerateScheduleForCodes(Codes(candidates), lookup, maxCredits);
    Recommendation(query, |candidates|, s.schedule, s.totalCredits, s.conflicts, s.message)
  }

  lemma {:induction false} ResolveOwnCodes(cs: seq<Course>, lookup: string -> Option<Course>)
    requires forall i :: 0 <= i < |cs| ==> lookup(cs[i].code) == Some(cs[i])
    ensures Resolve(Codes(cs), lookup) == cs
    decreases |cs|
  {
    if cs != [] {
      assert Codes(cs)[1..] == Codes(cs[1..]);
      ResolveOwnCodes(cs[1..], lookup);
    }
  }

  /** When the index returns each candidate for its own code, the
      recommendation schedules exactly the candidates: one outcome per
      candidate, drawn from them, conflict-free and within the ceiling. */
  lemma RecommendSchedulesCandidates(query: string, candidates: seq<Course>, lookup: string -> Option<Course>, maxCredits: int)
    requires forall i :: 0 <= i < |candidates| ==> lookup(candidates[i].code) == Some(candidates[i])
    ensures var r := RecommendCourses(query, candidates, lookup, maxCredits);
      && |r.recommendedSchedule| + |r.conflicts| == |candidates|
      && multiset(r.recommendedSchedule) <= multiset(candidates)
      && Compatible(r.recommendedSchedule)
      && r.totalCredits == SumCredits(r.recommendedSchedule)
      && (maxCredits >= 0 ==> r.totalCredits <= maxCredits)
  {
    ResolveOwnCodes(candidates, lookup);
  }
}

=== FILE: strings.dfy ===
/** The few string operations the course tools rely on: ASCII digits, the
    decimal rendering Python's `str()` gives an `int`, `str.join`, and the
    whitespace `str.strip()` removes. */
module Strings {

  predicate IsDigit(c: char) {
    '0' <= c <= '9'
  }

  predicate AllDigits(s: string) {
    forall k :: 0 <= k < |s| ==> IsDigit(s[k])
  }

  /** `int(c)` for a single ASCII digit. */
  function DigitValue(c: char): (v: nat)
    requires IsDigit(c)
    ensures v <= 9
  {
    c as int - '0' as int
  }

  /** The digit that renders `v`. */
  function DigitChar(v: nat): (c: char)
    requires v <= 9
    ensures IsDigit(c) && DigitValue(c) == v
  {
    ('0' as int + v) as char
  }

  /** The characters of `s` that are digits, in order (a filter). */
  function Digits(s: string): (r: string)
    ensures AllDigits(r)
    ensures |r| <= |s|
    ensures forall c {:trigger multiset(r)[c]} :: multiset(r)[c] == (if IsDigit(c) then multiset(s)[c] else 0)
    decreases |s|
  {
    if s == [] then []
    else
      assert s == [s[0]] + s[1..];
      (if IsDigit(s[0]) then [s[0]] else []) + Digits(s[1..])
  }

  lemma {:induction false} DigitsAppend(a: string, b: string)
    ensures Digits(a + b) == Digits(a) + Digits(b)
    decreases |a|
  {
    if a == [] {
      assert a + b == b;
    } else {
      assert (a + b)[0] == a[0];
      assert (a + b)[1..] == a[1..] + b;
      DigitsAppend(a[1..], b);
    }
  }

  lemma {:induction false} DigitsOfAllDigits(s: string)
    requires AllDigits(s)
    ensures Digits(s) == s
    decreases |s|
  {
    if s != [] {
      DigitsOfAllDigits(s[1..]);
    }
  }

  /** Python's `str(n)` for a non-negative `int`: shortest decimal form. */
  function NatToString(n: nat): (s: string)
    ensures |s| > 0 && AllDigits(s)
    ensures |s| > 1 ==> s[0] != '0'
    decreases n
  {
    if n < 10 then [DigitChar(n)] else NatToString(n / 10) + [DigitChar(n % 10)]
  }

  /** The value a string of decimal digits denotes (Python's `int(s)`). */
  function DigitsValue(s: string): (r: nat)
    requires AllDigits(s)
    decreases |s|
  {
    if s == [] then 0 else DigitsValue(s[..|s| - 1]) * 10 + DigitValue(s[|s| - 1])
  }

  /** Reading back a rendered number gives the number. */
  lemma {:induction false} NatToStringRoundTrip(n: nat)
    ensures DigitsValue(NatToString(n)) == n
    decreases n
  {
    if n >= 10 {
      var s := NatToString(n);
      NatToStringRoundTrip(n / 10);
      assert s[..|s| - 1] == NatToString(n / 10);
      assert s[|s| - 1] == DigitChar(n % 10);
    }
  }

  lemma NatToStringInjective(m: nat, n: nat)
    requires NatToString(m) == NatToString(n)
    ensures m == n
  {
    NatToStringRoundTrip(m);
    NatToStringRoundTrip(n);
  }

  /** Python's `str(i)` for any `int`: a minus sign before negative values. */
  function IntToString(i: int): (s: string)
    ensures i >= 0 ==> s == NatToString(i)
    ensures i < 0 ==> s == "-" + NatToString(-i)
  {
    if i < 0 then "-" + NatToString(-i) else NatToString(i)
  }

  /** `"".join(xs)`. */
  function Concat(xs: seq<string>): (r: string)
    decreases |xs|
  {
    if xs == [] then "" else xs[0] + Concat(xs[1..])
  }

  lemma {:induction false} ConcatAppend(xs: seq<string>, ys: seq<string>)
    ensures Concat(xs + ys) == Concat(xs) + Concat(ys)
    decreases |xs|
  {
    if xs == [] {
      assert xs + ys == ys;
    } else {
      assert (xs + ys)[1..] == xs[1..] + ys;
      ConcatAppend(xs[1..], ys);
    }
  }

  /** Where the three parts of `a + b + c` sit. */
  lemma ThreeParts(a: string, b: string, c: string)
    ensures var s := a + b + c;
      && |s| == |a| + |b| + |c|
      && s[..|a|] == a && s[|a|..|a| + |b|] == b && s[|a| + |b|..] == c
  {
  }

  /** `sep.join(xs)`. */
  function JoinWith(sep: string, xs: seq<string>): (r: string)
    ensures xs == [] ==> r == ""
    ensures |xs| == 1 ==> r == xs[0]
    decreases |xs|
  {
    if xs == [] then ""
    else if |xs| == 1 then xs[0]
    else xs[0] + sep + JoinWith(sep, xs[1..])
  }

  /** The joined text opens with the first piece and closes with the last. */
  lemma {:induction false} JoinWithEnds(sep: string, xs: seq<string>)
    requires xs != []
    ensures |xs[0]| <= |JoinWith(sep, xs)| && JoinWith(sep, xs)[..|xs[0]|] == xs[0]
    ensures |xs[|xs| - 1]| <= |JoinWith(sep, xs)|
    ensures JoinWith(sep, xs)[|JoinWith(sep, xs)| - |xs[|xs| - 1]|..] == xs[|xs| - 1]
    decreases |xs|
  {
    if |xs| > 1 {
      JoinWithEnds(sep, xs[1..]);
      var j, t := JoinWith(sep, xs), JoinWith(sep, xs[1..]);
      assert j == xs[0] + sep + t;
      assert j[..|xs[0]|] == xs[0];
      assert xs[1..][|xs[1..]| - 1] == xs[|xs| - 1];
      assert j[|j| - |t|..] == t;
    }
  }

  /** Total length of a list of strings. */
  function TotalLength(xs: seq<string>): (n: nat)
    decreases |xs|
  {
    if xs == [] then 0 else |xs[0]| + TotalLength(xs[1..])
  }

  /** The joined text holds every piece and one separator between neighbours. */
  lemma {:induction false} JoinWithLength(sep: string, xs: seq<string>)
    requires xs != []
    ensures |JoinWith(sep, xs)| == TotalLength(xs) + (|xs| - 1) * |sep|
    decreases |xs|
  {
    if |xs| > 1 {
      JoinWithLength(sep, xs[1..]);
    }
  }

  /** The characters Python's `str.isspace()` accepts, which `str.strip()` removes. */
  predicate IsPyWhitespace(c: char) {
    || c == ' ' || c == '\t' || c == '\n' || c == '\r'
    || c == '\U{000B}' || c == '\U{000C}'
    || ('\U{001C}' <= c <= '\U{001F}')
    || c == '\U{0085}' || c == '\U{00A0}' || c == '\U{1680}'
    || ('\U{2000}' <= c <= '\U{200A}')
    || c == '\U{2028}' || c == '\U{2029}' || c == '\U{202F}' || c == '\U{205F}' || c == '\U{3000}'
  }

  /** `not s or s.strip() == ""`. */
  predicate IsBlank(s: string) {
    forall k :: 0 <= k < |s| ==> IsPyWhitespace(s[k])
  }

  /** No occurrence of the character `c`. */
  predicate Lacks(s: string, c: char) {
    forall k :: 0 <= k < |s| ==> s[k] != c
  }
}

=== FILE: time_slots.dfy ===
/** `parse_time_slots`: turns the compact schedule text
    `"weekday 4, 234. weekday 2, 789. "` into one slot record per period digit.
    The API and the upload script carry identical copies of this function;
    this module models both.

    The source finds its groups with `re.findall(r'weekday (\d+), ([0-9X]+)\.?', s)`.
    Here that search is a scanner over the text: `MatchAt` is the match the
    pattern makes at the start of a text (or none), and `FindAll` walks the
    text left to right, resuming after each match, as `findall` does. */
module TimeSlots {
  import opened Json
  import opened Strings

  /** One parsed slot: the weekday label, the period number and the display
      text `weekday + "第" + period + "節"`. */
  datatype Slot = Slot(weekday: string, period: int, time: string)

  /** The two capture groups of one match: the day digits and the period run. */
  datatype Group = Group(day: string, periods: string)

  /** A match: its groups and how many characters it consumed. */
  datatype Match = Match(group: Group, len: nat)

  const Keyword: string := "weekday "

  /** The character class `[0-9X]`: a period digit or the unspecified-period mark. */
  predicate IsPeriodChar(c: char) {
    IsDigit(c) || c == 'X'
  }

  predicate AllPeriodChars(s: string) {
    forall k :: 0 <= k < |s| ==> IsPeriodChar(s[k])
  }

  /** Length of the longest prefix of `t` whose characters all satisfy `p`:
      what a greedy `[...]+` or `\d+` consumes. */
  function Span(t: string, p: char -> bool): (n: nat)
    ensures n <= |t|
    ensures forall k :: 0 <= k < n ==> p(t[k])
    ensures n == |t| || !p(t[n])
    decreases |t|
  {
    if t == [] || !p(t[0]) then 0 else 1 + Span(t[1..], p)
  }

  /** The length of a match with `d` day digits, `p` period characters and an
      optional final dot. */
  function MatchLen(d: nat, p: nat, dot: bool): (r: nat) {
    10 + d + p + (if dot then 1 else 0)
  }

  /** The pattern matches the first `MatchLen(d, p, dot)` characters of `s`,
      with `d` characters in the day group and `p` in the period group. */
  ghost predicate PatternAt(s: string, d: nat, p: nat, dot: bool) {
    && MatchLen(d, p, dot) <= |s|
    && s[..8] == Keyword
    && 0 < d && (forall k :: 8 <= k < 8 + d ==> IsDigit(s[k]))
    && s[8 + d] == ',' && s[9 + d] == ' '
    && 0 < p && (forall k :: 10 + d <= k < 10 + d + p ==> IsPeriodChar(s[k]))
    && (dot ==> s[10 + d + p] == '.')
  }

  /** The groups of `m` are the text they were captured from: the day group
      right after the keyword, the period group right after `", "`. */
  predicate Captures(s: string, m: Match) {
    var d, p := |m.group.day|, |m.group.periods|;
    && 10 + d + p <= |s|
    && m.group.day == s[8..8 + d]
    && m.group.periods == s[10 + d..10 + d + p]
  }

  /** The match of `weekday (\d+), ([0-9X]+)\.?` at the start of `s`, if any. */
  function MatchAt(s: string): (r: Option<Match>)
    ensures r.Some? ==> 0 < r.value.len <= |s|
    ensures r.Some? ==> var g := r.value.group;
      && g.day != [] && AllDigits(g.day)
      && g.periods != [] && AllPeriodChars(g.periods)
      && r.value.len - (10 + |g.day| + |g.periods|) in {0, 1}
    ensures r.Some? ==> Captures(s, r.value)
  {
    if |s| < 8 || s[..8] != Keyword then None
    else
      var d := Span(s[8..], IsDigit);
      if d == 0 || |s| < 10 + d || s[8 + d] != ',' || s[9 + d] != ' ' then None
      else
        var p := Span(s[10 + d..], IsPeriodChar);
        if p == 0 then None
        else
          var e := 10 + d + p;
          var len := if e < |s| && s[e] == '.' then e + 1 else e;
          Some(Match(Group(s[8..8 + d], s[10 + d..e]), len))
  }

  /** `MatchAt` is exactly the regular-expression match: it finds one iff
      some prefix of `s` matches the pattern, and then it is the longest
      such prefix, which is the one Python's greedy matcher picks. */
  lemma MatchAtIsLongestMatch(s: string)
    ensures MatchAt(s).None? <==> forall d: nat, p: nat, dot: bool :: !PatternAt(s, d, p, dot)
    ensures MatchAt(s).Some? ==>
      var m := MatchAt(s).value;
      && PatternAt(s, |m.group.day|, |m.group.periods|, m.len == 11 + |m.group.day| + |m.group.periods|)
      && Captures(s, m)
      && (forall d: nat, p: nat, dot: bool :: PatternAt(s, d, p, dot) ==> MatchLen(d, p, dot) <= m.len)
  {
    forall d: nat, p: nat, dot: bool | PatternAt(s, d, p, dot)
      ensures MatchAt(s).Some? && MatchLen(d, p, dot) <= MatchAt(s).value.len
    {
      MatchAtCoversPattern(s, d, p, dot);
    }
    if MatchAt(s).Some? {
      MatchAtIsPattern(s);
    }
  }

  /** Every match of the pattern at the start of `s` is found, and is no
      longer than the one `MatchAt` returns. */
  lemma MatchAtCoversPattern(s: string, d: nat, p: nat, dot: bool)
    requires PatternAt(s, d, p, dot)
    ensures MatchAt(s).Some? && MatchLen(d, p, dot) <= MatchAt(s).value.len
  {
    var t := s[8..];
    assert forall k :: 0 <= k < d ==> IsDigit(t[k]);
    assert !IsDigit(t[d]);
    assert Span(t, IsDigit) == d;
    var u := s[10 + d..];
    assert forall k :: 0 <= k < p ==> IsPeriodChar(u[k]);
    assert Span(u, IsPeriodChar) >= p;
  }

  /** What `MatchAt` returns is a match of the pattern, and its groups are
      the text they were captured from. */
  lemma MatchAtIsPattern(s: string)
    requires MatchAt(s).Some?
    ensures var m := MatchAt(s).value;
      && PatternAt(s, |m.group.day|, |m.group.periods|, m.len == 11 + |m.group.day| + |m.group.periods|)
      && Captures(s, m)
  {
    var m := MatchAt(s).value;
    var d := |m.group.day|;
    var p := |m.group.periods|;
    assert s[..8] == Keyword;
    forall k | 8 <= k < 8 + d ensures IsDigit(s[k]) {
      assert s[k] == m.group.day[k - 8];
    }
    forall k | 10 + d <= k < 10 + d + p ensures IsPeriodChar(s[k]) {
      assert s[k] == m.group.periods[k - 10 - d];
    }
  }

  /** No match can start at a character other than `w`. */
  lemma MatchAtNeedsW(s: string)
    requires s != [] && s[0] != 'w'
    ensures MatchAt(s).None?
  {
    if |s| >= 8 {
      assert s[..8][0] == s[0];
    }
  }

  /** `re.findall`: leftmost matches, scanning on after each one. Every
      group has a non-empty all-digit day and a non-empty `[0-9X]` period
      run, and each match uses at least 12 characters of the text. */
  function FindAll(s: string): (r: seq<Group>)
    ensures forall k :: 0 <= k < |r| ==>
      && r[k].day != [] && AllDigits(r[k].day)
      && r[k].periods != [] && AllPeriodChars(r[k].periods)
    ensures 12 * |r| <= |s|
    decreases |s|
  {
    if s == [] then []
    else
      match MatchAt(s)
      case Some(m) => [m.group] + FindAll(s[m.len..])
      case None => FindAll(s[1..])
  }

  /** Text without a `w` holds no match, so the scan skips straight past it. */
  lemma {:induction false} FindAllSkips(x: string, rest: string)
    requires Lacks(x, 'w')
    ensures FindAll(x + rest) == FindAll(rest)
    decreases |x|
  {
    if x == [] {
      assert x + rest == rest;
    } else {
      assert (x + rest)[0] == x[0];
      MatchAtNeedsW(x + rest);
      assert FindAll(x + rest) == FindAll((x + rest)[1..]);
      assert (x + rest)[1..] == x[1..] + rest;
      FindAllSkips(x[1..], rest);
    }
  }

  /** `day_map`: the fixed labels for the day strings '0' to '6'. */
  const DayNames: map<string, string> := map[
    "1" := "星期一", "2" := "星期二", "3" := "星期三",
    "4" := "星期四", "5" := "星期五", "6" := "星期六", "0" := "星期日"]

  /** `day_map.get(day, f'星期{day}')`. */
  function DayLabel(day: string): (weekday: string)
    ensures |weekday| >= 2 && weekday[..2] == "星期"
    ensures day in DayNames ==> |weekday| == 3 && !IsDigit(weekday[2])
    ensures day == "0" ==> weekday == "星期日"
    ensures day == "1" ==> weekday == "星期一"
    ensures day == "2" ==> weekday == "星期二"
    ensures day == "3" ==> weekday == "星期三"
    ensures day == "4" ==> weekday == "星期四"
    ensures day == "5" ==> weekday == "星期五"
    ensures day == "6" ==> weekday == "星期六"
    ensures day !in DayNames ==> weekday[2..] == day
  {
    if day in DayNames then DayNames[day] else "星期" + day
  }

  /** Distinct day strings get distinct labels, so comparing labels compares days. */
  lemma DayLabelInjective(a: string, b: string)
    requires AllDigits(a) && AllDigits(b)
    requires DayLabel(a) == DayLabel(b)
    ensures a == b
  {
    if a in DayNames && b in DayNames {
      assert a in {"0", "1", "2", "3", "4", "5", "6"};
      assert b in {"0", "1", "2", "3", "4", "5", "6"};
    }
  }

  /** The slot for one period digit `c` under the weekday label `weekday`. */
  function MakeSlot(weekday: string, c: char): (r: Slot)
    requires IsDigit(c)
  {
    Slot(weekday, DigitValue(c), weekday + "第" + [c] + "節")
  }

  /** One slot per digit of `periods`, in order; `X` and other characters emit nothing. */
  function DigitSlots(weekday: string, periods: string): (r: seq<Slot>)
    ensures |r| == |Digits(periods)|
    ensures forall k :: 0 <= k < |r| ==>
      && r[k].weekday == weekday
      && r[k].period == DigitValue(Digits(periods)[k])
      && r[k].time == weekday + "第" + [Digits(periods)[k]] + "節"
    decreases |periods|
  {
    if periods == [] then []
    else (if IsDigit(periods[0]) then [MakeSlot(weekday, periods[0])] else []) + DigitSlots(weekday, periods[1..])
  }

  lemma {:induction false} DigitSlotsAppend(weekday: string, a: string, b: string)
    ensures DigitSlots(weekday, a + b) == DigitSlots(weekday, a) + DigitSlots(weekday, b)
    decreases |a|
  {
    if a == [] {
      assert a + b == b;
    } else {
      assert (a + b)[0] == a[0];
      assert (a + b)[1..] == a[1..] + b;
      DigitSlotsAppend(weekday, a[1..], b);
    }
  }

  /** The slots of the groups, group by group. */
  function GroupSlots(gs: seq<Group>): (r: seq<Slot>)
    decreases |gs|
  {
    if gs == [] then [] else DigitSlots(DayLabel(gs[0].day), gs[0].periods) + GroupSlots(gs[1..])
  }

  lemma {:induction false} GroupSlotsAppend(a: seq<Group>, b: seq<Group>)
    ensures GroupSlots(a + b) == GroupSlots(a) + GroupSlots(b)
    decreases |a|
  {
    if a == [] {
      assert a + b == b;
    } else {
      assert (a + b)[0] == a[0];
      assert (a + b)[1..] == a[1..] + b;
      GroupSlotsAppend(a[1..], b);
      var h := DigitSlots(DayLabel(a[0].day), a[0].periods);
      calc {
        GroupSlots(a + b);
        h + GroupSlots(a[1..] + b);
        h + (GroupSlots(a[1..]) + GroupSlots(b));
        (h + GroupSlots(a[1..])) + GroupSlots(b);
      }
    }
  }

  /** All period characters of the groups, in group order. */
  function AllPeriods(gs: seq<Group>): (r: string)
    decreases |gs|
  {
    if gs == [] then "" else gs[0].periods + AllPeriods(gs[1..])
  }

  /** `parse_time_slots`: nothing for blank text, otherwise the slots of every
      group `findall` returns. */
  function ParseTimeSlots(s: string): (r: seq<Slot>)
    ensures IsBlank(s) ==> r == []
  {
    if IsBlank(s) then [] else GroupSlots(FindAll(s))
  }

  /** Blank text contains no `w`, so the early return for it agrees with the scan. */
  lemma BlankCheckAgreesWithScan(s: string)
    ensures ParseTimeSlots(s) == GroupSlots(FindAll(s))
  {
    if IsBlank(s) {
      assert Lacks(s, 'w');
      FindAllSkips(s, []);
      assert s + [] == s;
    }
  }

  /** The parse emits exactly one slot per digit across all matched period
      groups, in group order and then character order, each labelled with its
      group's weekday. */
  lemma {:induction false} ParseEmitsOneSlotPerDigit(gs: seq<Group>)
    ensures |GroupSlots(gs)| == |Digits(AllPeriods(gs))|
    ensures forall k :: 0 <= k < |GroupSlots(gs)| ==>
      GroupSlots(gs)[k].period == DigitValue(Digits(AllPeriods(gs))[k])
    decreases |gs|
  {
    if gs != [] {
      ParseEmitsOneSlotPerDigit(gs[1..]);
      DigitsAppend(gs[0].periods, AllPeriods(gs[1..]));
    }
  }

  lemma ParseTimeSlotsCountsDigits(s: string)
    ensures |ParseTimeSlots(s)| == |Digits(AllPeriods(FindAll(s)))|
    ensures forall k :: 0 <= k < |ParseTimeSlots(s)| ==>
      ParseTimeSlots(s)[k].period == DigitValue(Digits(AllPeriods(FindAll(s)))[k])
  {
    BlankCheckAgreesWithScan(s);
    ParseEmitsOneSlotPerDigit(FindAll(s));
  }
}
